=== FILE: README.md ===
# maish-sale-backend: a Dafny model of the sales and account handlers

This project models the request-handling core of a small Express backend
for recording sales. Employees sign up and log in. A login attempt answered
200, 400 or 401 goes into an audit table; a failed user lookup is answered
500 without one. An authenticated employee submits sales and lists their
own sales. The model covers:

- the `createSale` and `getSales` handlers of `src/routes/sales.js`:
  - payload checks in their fixed order;
  - the UTC business-hour gate;
  - dollars to integer cents and a 2% commission;
  - best-effort receipt upload;
  - the response that echoes the stored sale.
- the `/signup` and `/login` handlers of `src/routes/auth.js`:
  - the signup validator chain and its 409/500 error mapping;
  - the login state machine, which writes one audit record for every attempt answered 200, 400 or 401; a failed lookup is answered 500 without one.
- the three tables and their operations (`src/models/User.js`,
  `src/models/Sale.js`, `src/models/LoginAttempt.js`), with the constraints
  the schema declares in `src/database/init.js`:
  - AUTOINCREMENT ids;
  - a UNIQUE username;
  - a nullable photo path.
- password hashing, token issue and bearer-header authentication (`src/auth.js`).

Every handler is a pure function. It takes the store, the request, the clock
and the outcomes of the calls that leave the process, and returns the new
store and the HTTP response. Those outside calls are Argon2, the image host
and the store's own failures, and each is a parameter:

- `Argon2Hash` and `Argon2Verify` are functions returning `None` when the
  primitive throws.
- A JWT is a datatype holding its claims, `iat`, `exp` and the key it was
  signed with. Its text is read by a `decode` function.
- An upload is a `Receipt` whose result is a URL or a failure.
- A store error is a `fault` argument.
- The clock is epoch milliseconds. The store's own `CURRENT_TIMESTAMP` is a
  separate `dbNow`.

Modules follow the source files:

- `Common`: `Option`/`Result`/`Promise`, truthiness, and the JavaScript
  string operations the handlers use (`trim`, `split(' ')`, `includes`).
- `Crypto`: `src/auth.js`.
- `Users`, `SalesLedger` and `LoginAttempts`: the models.
- `Db`: the three tables together.
- `Http`: response bodies.
- `Money` and `SalesRoutes`: `src/routes/sales.js`.
- `AuthRoutes`: `src/routes/auth.js`.
- `Scenarios`: end-to-end runs on a fresh database.

Points of the code that the model keeps as they are:

- **Login role.** The `users` table has no `role` column, so at login
  `user.role` is `undefined` (`src/routes/auth.js:75-86`). The login response
  and its token carry no role (`None`). Only signup reports `role: 'employee'`.
- **Audit on a failed lookup.** When the user lookup itself throws, the
  handler answers 500 from its `catch` without writing an audit record
  (`src/routes/auth.js:58`, `:87-90`). `AuthRoutes.LoginWith` states the audit
  record for every status except 500, and the unchanged store for 500.
- **Rounding.** The amount is rounded with `Math.round`, which rounds halves
  towards +infinity (`src/routes/sales.js:46-47`). `Money.Round` is that
  function.
- **Hour gate.** The code rejects `hour < 7 || hour >= 21`
  (`src/routes/sales.js:42`), so it accepts hours 7 to 20 inclusive and its
  refusal message says "between 07:00 and 21:00 UTC".
  `SalesRoutes.BusinessHoursBoundaries` states the millisecond boundaries.
- **Username length.** The length bound is measured on the username before
  `trim()` (`src/routes/auth.js:18`), while the trimmed name is stored
  (`src/routes/auth.js:27`). See Findings.
- **Two clock readings in `createSale`.** The token's expiry is checked by the
  middleware when the request arrives (`authMs`). The business hour is read
  from a later `new Date()`, after the upload middleware has received the file
  (`nowMs`). `SalesRoutes.CreateSale` takes both instants.

## Model

| member | source | states |
|---|---|---|
| Common.Trim | src/routes/sales.js:30 | `trim()` returns the infix that starts and ends with non-whitespace, with only ECMAScript whitespace cut off on either side; it is empty exactly when the string is all whitespace |
| Common.TrimPadded | src/routes/auth.js:27 | any whitespace padding around a trimmed string is exactly what `trim()` removes |
| Common.TrimIdempotent | src/routes/sales.js:30 | `trim()` is idempotent: on a string it has already trimmed it changes nothing, so the description stored at line 60 would be stored unchanged if it were submitted again |
| Common.Split | src/auth.js:37 | `split(' ')` yields at least one piece, and no piece contains a space |
| Common.JoinSplit | src/auth.js:37 | joining the pieces of `split(' ')` with single spaces gives back the header |
| Common.SplitJoin | src/auth.js:37 | splitting space-free words joined by single spaces returns those words, so the element at index 1 is the second word |
| Common.ContainsInfix | src/routes/auth.js:38 | `includes` finds a marker wherever it occurs in an error message |
| Crypto.HashPassword | src/auth.js:13-20 | the result is the Argon2 hash, or the single error "Password hashing failed" when Argon2 throws; it never yields anything else |
| Crypto.VerifyPassword | src/auth.js:22-29 | true only when Argon2 positively confirms the match; an internal error reads as a mismatch |
| Crypto.EpochSeconds | src/auth.js:32 | the whole second of an instant, for the `iat`/`exp` claims: the instant lies in `[sec * 1000, sec * 1000 + 1000)` |
| Crypto.GenerateToken | src/auth.js:31-33 | the token carries exactly the payload, is signed with the process secret, is issued in the current second and expires 7 days (604800 s) later |
| Crypto.JwtVerify | src/auth.js:44 | claims come back only for a decodable token signed with the secret whose expiry second is still ahead, and they are that token's claims |
| Crypto.BearerToken | src/auth.js:36-37 | a token exists exactly when the header is present and non-empty and its split on spaces has a non-empty element at index 1, and it is that element; the scheme word is not examined |
| Crypto.AuthenticateToken | src/auth.js:35-49 | no usable token word gives "Access token required"; every other failure gives "Invalid token"; success happens exactly when the token word decodes to a token signed with the secret whose expiry second is still ahead, and returns exactly that token's claims |
| Crypto.BearerTokenOfTwoWords | src/auth.js:37 | `<any scheme> <token>` yields that token |
| Crypto.BearerTokenMissing | src/auth.js:37-41 | a bare scheme word or a double space before the token yields no token |
| Crypto.IssuedTokenAuthenticates | src/auth.js:31-48 | a token from `generateToken` authenticates as its own claims until its expiry second and is "Invalid token" from then on |
| Crypto.ForeignTokenRejected | src/auth.js:43-48 | a token signed with another key is rejected as "Invalid token" however fresh it is |
| Users.Create | src/models/User.js:4-20 | the password is hashed first; a hashing failure, a store error or a taken username leaves the table unchanged; a taken username fails with a UNIQUE-constraint message; success appends one row with a fresh id and the hash (never the password) and returns role "employee" |
| Users.FindByUsername | src/models/User.js:22-37 | absence is `null`, not an error, and occurs exactly when no row has that exact username; a found row has exactly that username |
| Users.CreatedUserIsFound | src/models/User.js:4-37 | a created account is found again by its username with its fresh id and stored hash |
| Users.DuplicateCreateFails | src/database/init.js:9 | creating an existing username fails, leaves the table as it was, and carries the UNIQUE message whenever hashing succeeds |
| Users.ValidatePassword | src/models/User.js:39-41 | the password is checked against this user's stored hash and nothing else; the result is a promise of that check |
| SalesLedger.Create | src/models/Sale.js:4-18 | one row with the six given fields and the store's timestamp is appended after the existing rows, and only its fresh id is returned; a store error writes nothing |
| SalesLedger.FindByUserId | src/models/Sale.js:20-34 | exactly the rows of that user, each as often as stored, ordered newest `created_at` first; the ledger is not changed |
| SalesLedger.SortNewestFirst | src/models/Sale.js:23 | the result is a permutation of its input ordered by descending `created_at` |
| SalesLedger.CreatedSaleIsListed | src/models/Sale.js:7-8 | a created sale is listed for its user with the description, cents, commission, timestamp and photo it was created with |
| SalesLedger.OtherListingsUnchanged | src/models/Sale.js:23 | creating a sale for one user leaves every other user's listing exactly as it was |
| LoginAttempts.Log | src/models/LoginAttempt.js:4-15 | when the insert succeeds, exactly one row is appended with a fresh id, the username as given, the address, and `success` stored as 1 or 0; when it fails, nothing is written and nothing reaches the caller |
| Money.Round | src/routes/sales.js:46 | `Math.round` gives the integer within half a unit, ties going up |
| Money.AmountCents | src/routes/sales.js:46 | the cents are the whole number nearest to the dollar amount times 100 |
| Money.CommissionCents | src/routes/sales.js:47 | the commission is the whole number of cents nearest to 2% of the amount |
| Money.CommissionIsIntegerRounding | src/routes/sales.js:47 | the commission equals `(cents + 25) / 50` in integer arithmetic |
| Money.CommissionBounds | src/routes/sales.js:47 | for a non-negative amount, 0 <= commission <= amount |
| Money.PositiveAmountCents | src/routes/sales.js:35-46 | a positive amount gives non-negative cents, and an amount below half a cent gives 0 cents |
| Money.Examples | src/routes/sales.js:46-47 | $19.999 is 2000 cents with 40 cents commission; $0.004 is 0 cents |
| SalesRoutes.CheckPayload | src/routes/sales.js:23-37 | "required" exactly when the description or amount is falsy; "cannot be empty" exactly when the description is all whitespace; "positive number" exactly when `parseFloat` gives NaN or <= 0; it succeeds exactly when none of these holds, and then yields the trimmed, non-empty description and the positive amount |
| SalesRoutes.UtcHour | src/routes/sales.js:40-41 | `getUTCHours()` is the hour 0..23 whose hour-long slot of the UTC day contains the instant |
| SalesRoutes.InBusinessHours | src/routes/sales.js:42 | the gate lets an hour through exactly when it is 7 to 20 inclusive |
| SalesRoutes.UtcHourOfDay | src/routes/sales.js:40-41 | `getUTCHours()` of any instant on any day is its hour of day, before or after the epoch |
| SalesRoutes.BusinessHoursBoundaries | src/routes/sales.js:42-44 | 07:00:00.000 and 20:59:59.999 are accepted, 06:59:59.999 and 21:00:00.000 rejected, and the gate accepts hour h exactly when 7 <= h <= 20 |
| SalesRoutes.PhotoPath | src/routes/sales.js:50-58 | the photo path is present exactly when a receipt was sent and its upload succeeded, and it is the uploaded URL |
| SalesRoutes.CreateSale | src/routes/sales.js:11-80 | the token is checked at the arrival instant and the hour at the later handler instant; 401 exactly when authentication fails; 400 exactly when it succeeds but the payload is bad or the hour is outside 07:00-20:59 UTC; 500 exactly when all checks pass and the store faults; 201 exactly when all checks pass and the store accepts; the 401 body is the authentication error message, a 400 body is the first failing check's message, and the 500 body is "Internal server error"; only 201 writes, appending exactly one sale owned by the token's user that matches the response, with a fresh id and status "pending"; users and audit log are never touched |
| SalesRoutes.GetSales | src/routes/sales.js:83-106 | 401 exactly when authentication fails; 200 exactly when it succeeds and the store query does not fault; the 401 body is the authentication error message and the 500 body "Internal server error"; 200 lists the caller's rows in ledger-query order, each presented field for field with its `created_at` and status "pending" |
| SalesRoutes.CreateSaleCheckOrder | src/routes/sales.js:26-44 | a bad payload gets its own 400 at any hour and writes nothing; a good one is refused with the hour message exactly outside 07:00-20:59 UTC |
| SalesRoutes.CreateSaleAmounts | src/routes/sales.js:46-60 | a recorded sale holds the trimmed description, the rounded cents, a commission of `(cents + 25) / 50` between 0 and the cents, the submission instant inside business hours, and the photo outcome |
| SalesRoutes.FailedUploadStillRecordsSale | src/routes/sales.js:50-58 | a receipt whose upload fails gives exactly the outcome of sending no receipt, and a created sale then has no photo |
| SalesRoutes.ScenarioNoonAndNight | src/routes/sales.js:39-60 | $19.999 at noon UTC records 2000 cents and 40 commission; the same request at 22:00 UTC is refused with the store unchanged |
| SalesRoutes.TinyAmountAccepted | src/routes/sales.js:35-47 | an amount of $0.004 passes validation and is recorded as 0 cents with 0 commission |
| SalesRoutes.ZeroAmountMessages | src/routes/sales.js:26-37 | a JSON number 0 is "required", while the text "0" is "not positive" |
| SalesRoutes.CreatedSaleIsListedByRoutes | src/routes/sales.js:60-100 | a sale created through the route appears in the same caller's listing with the values the creation response reported |
| AuthRoutes.CheckSignupAsWritten | src/routes/auth.js:14-24 | "required" exactly when a field is missing or empty; the username-length message exactly when all are present and the untrimmed username is not 3 to 50 characters; the password message exactly when the username fits and the password is under 6; the chain passes exactly otherwise |
| AuthRoutes.CheckSignup | src/routes/auth.js:14-24 | the same chain, one condition per message, with the length bound applied to the trimmed username that is stored |
| AuthRoutes.Register | src/routes/auth.js:26-42 | 201 exactly when hashing succeeds, the store accepts and the trimmed username is free; the 201 body holds the new record's fresh id, trimmed username and role "employee", and a token for that same record; failures write nothing |
| AuthRoutes.RegisterFailures | src/routes/auth.js:36-42 | a taken username is 409 "Username already exists"; a hashing failure is 500; a store error is 409 exactly when its message includes "UNIQUE constraint failed" |
| AuthRoutes.SignupAsWritten | src/routes/auth.js:9-43 | a validation failure is a 400 with that message and creates no user; otherwise the outcome is that of account creation |
| AuthRoutes.Signup | src/routes/auth.js:9-43 | as above with the trimmed-length check; every account it creates has a 3-to-50-character username without surrounding whitespace |
| AuthRoutes.AcceptedNameIsTrimmed | src/routes/auth.js:18-27 | a username the corrected chain accepts is stored as 3 to 50 characters without surrounding whitespace |
| AuthRoutes.PaddedShortUsername | src/routes/auth.js:18-27 | as written, a name under 3 characters padded with whitespace passes and is stored short; the corrected chain rejects it |
| AuthRoutes.PaddedLongUsername | src/routes/auth.js:18-27 | as written, 49 characters padded to 51 are rejected, though the stored name would fit; the corrected chain accepts them |
| AuthRoutes.PasswordHashedUntrimmed | src/routes/auth.js:27 | the password is hashed exactly as sent, and only its hash is stored |
| AuthRoutes.ClientIp | src/routes/auth.js:49 | the address is `x-forwarded-for` when truthy, otherwise the socket address when truthy, otherwise "unknown"; it is never empty |
| AuthRoutes.LoggedName | src/routes/auth.js:53-72 | the audit username is the username as sent when truthy, otherwise the empty string |
| AuthRoutes.LoginWith | src/routes/auth.js:46-91 | 400 exactly when a field is missing, with "Username and password are required"; with both fields present, 500 exactly when the user lookup faults; every answer but 500 writes one audit record with the raw username (or `username \|\| ''`), the client address and `success` true exactly on 200; 500 is "Internal server error" and writes nothing; users and sales are never touched; 200 returns the found row's id and username and a token for them |
| AuthRoutes.LoginAsWrittenIgnoresPassword | src/routes/auth.js:65-69 | as written, any existing username with any non-empty password logs in |
| AuthRoutes.LoginChecksPassword | src/routes/auth.js:58-72 | with the check awaited, login succeeds exactly when the trimmed username exists and Argon2 confirms the password against that user's hash |
| AuthRoutes.LoginIndistinguishableFailures | src/routes/auth.js:59-69 | an unknown username and a wrong password give the same 401 body and the same failed audit record |
| AuthRoutes.LoginTrimsLookupNotLog | src/routes/auth.js:58-60 | the lookup uses the trimmed username while the audit record keeps the raw one |
| Scenarios.AliceSignsUp | src/routes/auth.js:27-35 | the first signup on an empty database creates user 1, "alice", role "employee", with a token for that record |
| Scenarios.AliceSignsUpTwice | src/routes/auth.js:38-39 | signing up "alice" again is 409 and changes nothing |
| Scenarios.LoginOutcomes | src/routes/auth.js:58-72 | after signup, the right password logs in, while a wrong password and an unknown name get the same 401; as written, the wrong password logs in too |
| Scenarios.SignupTokenRecordsSale | src/routes/sales.js:11-60 | the token a signup returns, presented as `Bearer <token>` within 7 days, is never refused with 401; the sale is recorded exactly when its payload is valid and the hour is inside business hours, and then the one appended row is owned by the new user's id and holds the values the 201 response reports |

## Findings

| source | as written | input that shows it | evidently intended | confidence | as-written member | corrected member |
|---|---|---|---|---|---|---|
| src/routes/auth.js:65 | `User.validatePassword` is async and is not awaited, so `isValid` is a Promise, which is always truthy; the 401 at lines 66-69 is unreachable | existing user "alice" with password "wrongpw" logs in with 200 | await the check, so the password must match the stored hash | high (not executed) | AuthRoutes.LoginAsWrittenIgnoresPassword | AuthRoutes.LoginChecksPassword |
| src/routes/auth.js:18 | the 3-to-50 bound is measured on the raw username, but line 27 stores `username.trim()` | username `" ab "` (or `"   "`) passes and is stored as `"ab"` (or `""`); `" " + 49 letters + " "` is rejected | bound the stored, trimmed username | high (not executed) | AuthRoutes.PaddedShortUsername | AuthRoutes.Signup |

`AuthRoutes.LoginAsWritten` and `AuthRoutes.SignupAsWritten` are the handlers
as written. `AuthRoutes.Login` and `AuthRoutes.Signup` are the corrected ones,
and the end-to-end properties in `Scenarios` are stated for them.

## Left out

- `src/server.js`: Express wiring, CORS, the listener and the generic error middleware are plumbing, not logic.
- `src/cloudinary.js`: the upload to the image host is the oracle `Receipt(upload)`. Multer's temporary files are not modelled.
- `src/database/init.js`: the DDL itself is not modelled. Its id and UNIQUE-username constraints are the `Valid` predicates (increasing fresh ids, no two rows with one username). The nullable photo path is the `Option<string>` type of the `photoPath` field.
- Argon2 and JWT cryptography: the primitives are parameters. Token text is read by a `decode` parameter, and the signature check is the comparison of the signing key with the secret.
- The `JWT_SECRET` start-up check: it is the `Secret` type (a non-empty string), since the process does not start without one.
- `SalesRoutes.ParseFloat`: does not parse text. A text amount carries the value `parseFloat` gives it, or `None` for NaN. IEEE-754 rounding of `amount * 100` and `cents * 0.02` is not modelled, since amounts are exact reals. Non-finite values (`parseFloat("Infinity")`) are outside the model.
- Request fields that are not strings (numbers, arrays, objects for `username` or `item_description`) are outside the model. Only `amount` distinguishes a JSON number from a text field.
- String length is counted in Unicode code points, not UTF-16 code units. Usernames outside the Basic Multilingual Plane are therefore measured differently.
- `timestamp`: stored and returned as epoch milliseconds. Its ISO-8601 rendering (`toISOString`) is not modelled. Neither is the store's `CURRENT_TIMESTAMP` text format.
- `SalesLedger.SortNewestFirst`: fixes one order among rows with equal `created_at`, where SQLite leaves it unspecified. The stated contract (sorted, a permutation) is all the query promises.
- `LoginAttempts.Log`: the insert is fire-and-forget. Its completion is not ordered with the response, and its error is only written to the console. The model applies it before the response, and an insert failure (`inserted == false`) changes nothing. Concurrency between requests and SQLite locking are not modelled.
- Foreign keys: `sales.user_id` is not checked against `users`. The store module that would enable foreign-key enforcement is not part of this model.
- `console` logging on every path is not modelled.
- `AuthRoutes.Login`: its own contract states only that the store stays valid. Its behaviour is stated by `AuthRoutes.LoginWith`, which it calls with the awaited check.
- `AuthRoutes.LoginAsWritten`: its own contract states only that the store stays valid. Its behaviour is stated by `AuthRoutes.LoginWith` with the un-awaited check.

=== FILE: auth_routes.dfy ===
/** The account routes (src/routes/auth.js): `POST /signup` and `POST /login`.
    Each is modelled twice: as the code is written, and with its defect
    corrected (see README, Findings). The corrected handlers are the ones the
    end-to-end properties are stated for. */
module AuthRoutes {
  import opened Common
  import Crypto
  import Users
  import LoginAttempts
  import Db
  import opened Http

  const FieldsRequired := "Username, full name, and password are required"
  const UsernameLength := "Username must be between 3 and 50 characters"
  const PasswordLength := "Password must be at least 6 characters long"
  const UsernameExists := "Username already exists"
  const Registered := "User registered successfully"
  const CredentialsRequired := "Username and password are required"
  const InvalidCredentials := "Invalid credentials"
  const LoggedIn := "Login successful"

  // ---------------------------------------------------------------------------
  // POST /signup
  // ---------------------------------------------------------------------------

  datatype SignupRequest = SignupRequest(username: Option<string>, fullName: Option<string>, password: Option<string>)

  predicate AllPresent(req: SignupRequest) {
    Truthy(req.username) && Truthy(req.fullName) && Truthy(req.password)
  }

  /** The validator chain as written: the username's length is measured
      before it is trimmed. */
  function CheckSignupAsWritten(req: SignupRequest): (error: Option<string>)
    ensures !AllPresent(req) <==> error == Some(FieldsRequired)
    ensures error == Some(UsernameLength) <==>
      AllPresent(req) && !(3 <= |req.username.value| <= 50)
    ensures error == Some(PasswordLength) <==>
      AllPresent(req) && 3 <= |req.username.value| <= 50 && |req.password.value| < 6
    ensures error.None? <==>
      AllPresent(req) && 3 <= |req.username.value| <= 50 && |req.password.value| >= 6
  {
    if !AllPresent(req) then Some(FieldsRequired)
    else if |req.username.value| < 3 || |req.username.value| > 50 then Some(UsernameLength)
    else if |req.password.value| < 6 then Some(PasswordLength)
    else None
  }

  /** The validator chain corrected: the length bound applies to the
      username that is stored, i.e. the trimmed one. */
  function CheckSignup(req: SignupRequest): (error: Option<string>)
    ensures !AllPresent(req) <==> error == Some(FieldsRequired)
    ensures error == Some(UsernameLength) <==>
      AllPresent(req) && !(3 <= |Trim(req.username.value)| <= 50)
    ensures error == Some(PasswordLength) <==>
      AllPresent(req) && 3 <= |Trim(req.username.value)| <= 50 && |req.password.value| < 6
    ensures error.None? <==>
      AllPresent(req) && 3 <= |Trim(req.username.value)| <= 50 && |req.password.value| >= 6
  {
    if !AllPresent(req) then Some(FieldsRequired)
    else if |Trim(req.username.value)| < 3 || |Trim(req.username.value)| > 50 then Some(UsernameLength)
    else if |req.password.value| < 6 then Some(PasswordLength)
    else None
  }

  /** Lines after validation: create the account from the trimmed username and
      full name and the untrimmed password, issue a token for the created
      record, and map errors to 409 (UNIQUE violation) or 500. */
  function Register(store: Db.Store, req: SignupRequest, argon2: Crypto.Argon2Hash, fault: Option<string>,
                    secret: Crypto.Secret, nowMs: int, dbNow: int): (out: (Db.Store, Response))
    requires Db.Valid(store) && AllPresent(req)
    ensures Db.Valid(out.0)
    ensures out.0.sales == store.sales && out.0.attempts == store.attempts
    ensures out.1.status in {201, 409, 500}
    ensures out.1.status != 201 ==> out.0 == store
    ensures out.1.status == 201 <==>
      argon2(req.password.value).Some? && fault.None? && !Users.Taken(store.users, Trim(req.username.value))
    ensures out.1.status == 201 ==>
      && out.1.body.AuthBody?
      && var user := out.1.body.user;
      && user == UserView(user.id, Trim(req.username.value), Some(Users.EmployeeRole))
      && !Users.HasId(store.users, user.id)
      && out.1.body.token == Crypto.GenerateToken(secret, Crypto.Claims(user.id, user.username, user.role), nowMs)
      && out.0.users.rows == store.users.rows + [Users.UserRow(user.id, Trim(req.username.value),
           Trim(req.fullName.value), argon2(req.password.value).value, dbNow)]
  {
    var (users', created) := Users.Create(store.users, Trim(req.username.value), Trim(req.fullName.value),
                                          req.password.value, argon2, fault, dbNow);
    match created
    case Ok(user) =>
      var token := Crypto.GenerateToken(secret, Crypto.Claims(user.id, user.username, Some(user.role)), nowMs);
      (store.(users := users'),
       Response(201, AuthBody(Registered, token, UserView(user.id, user.username, Some(user.role)))))
    case Err(m) =>
      (store.(users := users'),
       if Contains(m, Users.UniqueMarker) then Failure(409, UsernameExists) else Failure(500, InternalError))
  }

  /** `POST /signup` as written. */
  function SignupAsWritten(store: Db.Store, req: SignupRequest, argon2: Crypto.Argon2Hash, fault: Option<string>,
                           secret: Crypto.Secret, nowMs: int, dbNow: int): (out: (Db.Store, Response))
    requires Db.Valid(store)
    ensures Db.Valid(out.0)
    ensures out.1.status != 201 ==> out.0 == store
    ensures CheckSignupAsWritten(req).Some? ==> out == (store, Failure(400, CheckSignupAsWritten(req).value))
    ensures CheckSignupAsWritten(req).None? ==> out == Register(store, req, argon2, fault, secret, nowMs, dbNow)
  {
    match CheckSignupAsWritten(req)
    case Some(error) => (store, Failure(400, error))
    case None => Register(store, req, argon2, fault, secret, nowMs, dbNow)
  }

  /** `POST /signup` with the length bound applied to the trimmed username.
      Every account it creates has a username of 3 to 50 characters with no
      surrounding whitespace. */
  function Signup(store: Db.Store, req: SignupRequest, argon2: Crypto.Argon2Hash, fault: Option<string>,
                  secret: Crypto.Secret, nowMs: int, dbNow: int): (out: (Db.Store, Response))
    requires Db.Valid(store)
    ensures Db.Valid(out.0)
    ensures out.1.status != 201 ==> out.0 == store
    ensures CheckSignup(req).Some? ==> out == (store, Failure(400, CheckSignup(req).value))
    ensures CheckSignup(req).None? ==> out == Register(store, req, argon2, fault, secret, nowMs, dbNow)
    ensures out.1.status == 201 ==>
      var name := out.1.body.user.username;
      && 3 <= |name| <= 50 && !IsWhitespace(name[0]) && !IsWhitespace(name[|name| - 1])
  {
    match CheckSignup(req)
    case Some(error) => (store, Failure(400, error))
    case None =>
      AcceptedNameIsTrimmed(req);
      Register(store, req, argon2, fault, secret, nowMs, dbNow)
  }

  /** A username the corrected chain accepts is stored as 3 to 50 characters
      with no whitespace at either end. */
  lemma AcceptedNameIsTrimmed(req: SignupRequest)
    requires CheckSignup(req).None?
    ensures var name := Trim(req.username.value);
      && 3 <= |name| <= 50 && !IsWhitespace(name[0]) && !IsWhitespace(name[|name| - 1])
  {
  }

  /** The failures of account creation after validation: a taken username is
      409 "Username already exists"; a hashing failure or any store error whose
      message does not mention the UNIQUE constraint is 500. */
  lemma RegisterFailures(store: Db.Store, req: SignupRequest, argon2: Crypto.Argon2Hash, fault: Option<string>,
                         secret: Crypto.Secret, nowMs: int, dbNow: int)
    requires Db.Valid(store) && AllPresent(req)
    ensures var resp := Register(store, req, argon2, fault, secret, nowMs, dbNow).1;
      && ((argon2(req.password.value).Some? && fault.None? && Users.Taken(store.users, Trim(req.username.value)))
            ==> resp == Failure(409, UsernameExists))
      && (argon2(req.password.value).None? ==> resp == Failure(500, InternalError))
      && (argon2(req.password.value).Some? && fault.Some? ==>
            resp == (if Contains(fault.value, Users.UniqueMarker) then Failure(409, UsernameExists)
                     else Failure(500, InternalError)))
  {
    if argon2(req.password.value).None? {
      if Contains(Crypto.HashingFailed, Users.UniqueMarker) {
        ContainsNeedsRoom(Crypto.HashingFailed, Users.UniqueMarker);
      }
    }
  }

  /** Finding: the as-written chain measures the untrimmed username, so a
      name of fewer than 3 characters padded with whitespace passes and is
      stored short (an all-space name is stored as ""); the corrected chain
      rejects it. */
  lemma PaddedShortUsername(store: Db.Store, pre: string, core: string, post: string, fullName: string,
                            password: string, argon2: Crypto.Argon2Hash, secret: Crypto.Secret, nowMs: int, dbNow: int)
    requires Db.Valid(store)
    requires AllWhitespace(pre) && AllWhitespace(post)
    requires core != [] ==> !IsWhitespace(core[0]) && !IsWhitespace(core[|core| - 1])
    requires |core| < 3 && 3 <= |pre + core + post| <= 50
    requires fullName != "" && |password| >= 6
    requires argon2(password).Some? && !Users.Taken(store.users, core)
    ensures var req := SignupRequest(Some(pre + core + post), Some(fullName), Some(password));
      && SignupAsWritten(store, req, argon2, None, secret, nowMs, dbNow).1.status == 201
      && SignupAsWritten(store, req, argon2, None, secret, nowMs, dbNow).1.body.user.username == core
      && Signup(store, req, argon2, None, secret, nowMs, dbNow) == (store, Failure(400, UsernameLength))
  {
    TrimPadded(pre, core, post);
  }

  /** Finding, other direction: 51 characters of which only 49 remain after
      trimming are rejected as written, though the stored name would fit. */
  lemma PaddedLongUsername(name: string, fullName: string, password: string)
    requires |name| == 49 && !IsWhitespace(name[0]) && !IsWhitespace(name[48])
    requires fullName != "" && |password| >= 6
    ensures var req := SignupRequest(Some(" " + name + " "), Some(fullName), Some(password));
      && CheckSignupAsWritten(req) == Some(UsernameLength)
      && CheckSignup(req).None?
  {
    assert AllWhitespace(" ");
    TrimPadded(" ", name, " ");
    assert |" " + name + " "| == 51;
  }

  /** The password is neither trimmed nor stored: a padded password is hashed
      as it was sent, and only the hash reaches the table. */
  lemma PasswordHashedUntrimmed(store: Db.Store, req: SignupRequest, argon2: Crypto.Argon2Hash,
                                secret: Crypto.Secret, nowMs: int, dbNow: int)
    requires Db.Valid(store)
    requires Signup(store, req, argon2, None, secret, nowMs, dbNow).1.status == 201
    ensures var users := Signup(store, req, argon2, None, secret, nowMs, dbNow).0.users;
      users.rows[|users.rows| - 1].passwordHash == argon2(req.password.value).value
  {
  }

  // ---------------------------------------------------------------------------
  // POST /login
  // ---------------------------------------------------------------------------

  /** Body fields and the two sources of the client address. */
  datatype LoginRequest = LoginRequest(username: Option<string>, password: Option<string>,
                                       forwardedFor: Option<string>, remoteAddress: Option<string>)

  /** `x-forwarded-for || remoteAddress || 'unknown'`. */
  function ClientIp(req: LoginRequest): (ip: string)
    ensures ip != ""
    ensures Truthy(req.forwardedFor) ==> ip == req.forwardedFor.value
    ensures !Truthy(req.forwardedFor) && Truthy(req.remoteAddress) ==> ip == req.remoteAddress.value
    ensures !Truthy(req.forwardedFor) && !Truthy(req.remoteAddress) ==> ip == "unknown"
  {
    if Truthy(req.forwardedFor) then req.forwardedFor.value else Or(req.remoteAddress, "unknown")
  }

  /** How the handler reads the result of `User.validatePassword`: as written
      it tests the promise object itself; corrected, it awaits the promise. */
  datatype PasswordCheck = UnawaitedPromise | AwaitedPromise

  function Accepts(check: PasswordCheck, isValid: Promise<bool>): bool {
    match check
    case UnawaitedPromise => ObjectTruthy(isValid)
    case AwaitedPromise => isValid.settled
  }

  /** The username the audit record of this attempt carries: the raw field,
      or `username || ''` when a field is missing. */
  function LoggedName(req: LoginRequest): (name: string)
    ensures Truthy(req.username) ==> name == req.username.value
    ensures !Truthy(req.username) ==> name == ""
  {
    Or(req.username, "")
  }

  /** The one response both the unknown-user and the wrong-password branches give. */
  const Rejected := Failure(401, InvalidCredentials)

  /** The login state machine. `lookupFault` is a failure of the user query,
      `logged` whether the audit insert succeeds, `dbNow` the store's clock. */
  function LoginWith(check: PasswordCheck, store: Db.Store, req: LoginRequest, argon2: Crypto.Argon2Verify,
                     lookupFault: bool, logged: bool, secret: Crypto.Secret, nowMs: int, dbNow: int)
    : (out: (Db.Store, Response))
    requires Db.Valid(store)
    ensures Db.Valid(out.0)
    ensures out.0.users == store.users && out.0.sales == store.sales
    ensures out.1.status in {200, 400, 401, 500}
    ensures out.1.status == 500 ==> out.0 == store
    ensures out.1.status != 500 ==>
      out.0.attempts == LoginAttempts.Log(store.attempts, LoggedName(req), out.1.status == 200,
                                          ClientIp(req), logged, dbNow)
    ensures out.1.status == 400 <==> !Truthy(req.username) || !Truthy(req.password)
    ensures Truthy(req.username) && Truthy(req.password) ==> (out.1.status == 500 <==> lookupFault)
    ensures out.1.status == 400 ==> out.1 == Failure(400, CredentialsRequired)
    ensures out.1.status == 500 ==> out.1 == Failure(500, InternalError)
    ensures out.1.status == 401 ==> out.1 == Rejected
    ensures out.1.status == 200 ==>
      && out.1.body.AuthBody?
      && Truthy(req.username)
      && var found := Users.FindByUsername(store.users, Trim(req.username.value), false).value;
      && found.Some? && lookupFault == false
      && out.1.body.user == UserView(found.value.id, found.value.username, None)
      && out.1.body.token == Crypto.GenerateToken(secret, Crypto.Claims(found.value.id, found.value.username, None), nowMs)
  {
    var ip := ClientIp(req);
    if !Truthy(req.username) || !Truthy(req.password) then
      (store.(attempts := LoginAttempts.Log(store.attempts, Or(req.username, ""), false, ip, logged, dbNow)),
       Failure(400, CredentialsRequired))
    else
      var username := req.username.value;
      match Users.FindByUsername(store.users, Trim(username), lookupFault)
      case Err(_) => (store, Failure(500, InternalError))
      case Ok(None) =>
        (store.(attempts := LoginAttempts.Log(store.attempts, username, false, ip, logged, dbNow)), Rejected)
      case Ok(Some(user)) =>
        var isValid := Users.ValidatePassword(user, req.password.value, argon2);
        if !Accepts(check, isValid) then
          (store.(attempts := LoginAttempts.Log(store.attempts, username, false, ip, logged, dbNow)), Rejected)
        else
          // The row read back has no `role` column, so `user.role` is undefined.
          var token := Crypto.GenerateToken(secret, Crypto.Claims(user.id, user.username, None), nowMs);
          (store.(attempts := LoginAttempts.Log(store.attempts, username, true, ip, logged, dbNow)),
           Response(200, AuthBody(LoggedIn, token, UserView(user.id, user.username, None))))
  }

  /** `POST /login` as written: `validatePassword` is not awaited. */
  function LoginAsWritten(store: Db.Store, req: LoginRequest, argon2: Crypto.Argon2Verify, lookupFault: bool,
                          logged: bool, secret: Crypto.Secret, nowMs: int, dbNow: int): (out: (Db.Store, Response))
    requires Db.Valid(store)
    ensures Db.Valid(out.0)
  {
    LoginWith(UnawaitedPromise, store, req, argon2, lookupFault, logged, secret, nowMs, dbNow)
  }

  /** `POST /login` with the password check awaited. */
  function Login(store: Db.Store, req: LoginRequest, argon2: Crypto.Argon2Verify, lookupFault: bool,
                 logged: bool, secret: Crypto.Secret, nowMs: int, dbNow: int): (out: (Db.Store, Response))
    requires Db.Valid(store)
    ensures Db.Valid(out.0)
  {
    LoginWith(AwaitedPromise, store, req, argon2, lookupFault, logged, secret, nowMs, dbNow)
  }

  /** Finding: as written, any existing username with any non-empty password
      logs in; the wrong-password response is unreachable. */
  lemma LoginAsWrittenIgnoresPassword(store: Db.Store, req: LoginRequest, argon2: Crypto.Argon2Verify,
                                      logged: bool, secret: Crypto.Secret, nowMs: int, dbNow: int)
    requires Db.Valid(store)
    requires Truthy(req.username) && Truthy(req.password)
    requires Users.Taken(store.users, Trim(req.username.value))
    ensures LoginAsWritten(store, req, argon2, false, logged, secret, nowMs, dbNow).1.status == 200
  {
  }

  /** The corrected login succeeds exactly when the trimmed username exists and
      Argon2 confirms the password against that user's stored hash. */
  lemma LoginChecksPassword(store: Db.Store, req: LoginRequest, argon2: Crypto.Argon2Verify,
                            logged: bool, secret: Crypto.Secret, nowMs: int, dbNow: int)
    requires Db.Valid(store)
    requires Truthy(req.username) && Truthy(req.password)
    ensures var found := Users.FindByUsername(store.users, Trim(req.username.value), false).value;
      Login(store, req, argon2, false, logged, secret, nowMs, dbNow).1.status == 200 <==>
        found.Some? && argon2(found.value.passwordHash, req.password.value) == Some(true)
  {
  }

  /** Unknown user and wrong password cannot be told apart: the same 401 body
      and the same failed audit record, so the outcome reveals nothing about
      whether the username exists. */
  lemma LoginIndistinguishableFailures(unknown: Db.Store, known: Db.Store, req: LoginRequest,
                                       argon2: Crypto.Argon2Verify, logged: bool, secret: Crypto.Secret,
                                       nowMs: int, dbNow: int)
    requires Db.Valid(unknown) && Db.Valid(known) && unknown.attempts == known.attempts
    requires Truthy(req.username) && Truthy(req.password)
    requires !Users.Taken(unknown.users, Trim(req.username.value))
    requires var found := Users.FindByUsername(known.users, Trim(req.username.value), false).value;
      found.Some? && argon2(found.value.passwordHash, req.password.value) != Some(true)
    ensures var a := Login(unknown, req, argon2, false, logged, secret, nowMs, dbNow);
      var b := Login(known, req, argon2, false, logged, secret, nowMs, dbNow);
      && a.1 == b.1 == Rejected
      && a.0.attempts == b.0.attempts
      == LoginAttempts.Log(unknown.attempts, req.username.value, false, ClientIp(req), logged, dbNow)
  {
  }

  /** The lookup uses the trimmed username while the audit record keeps the
      raw one. */
  lemma LoginTrimsLookupNotLog(store: Db.Store, req: LoginRequest, argon2: Crypto.Argon2Verify,
                               secret: Crypto.Secret, nowMs: int, dbNow: int)
    requires Db.Valid(store)
    requires Truthy(req.username) && Truthy(req.password)
    ensures var out := Login(store, req, argon2, false, true, secret, nowMs, dbNow);
      && out.0.attempts.rows[|store.attempts.rows|].username == req.username.value
      && (out.1.status == 200 ==> out.1.body.user.username == Trim(req.username.value))
  {
  }
}

=== FILE: common.dfy ===
/** Shared vocabulary of the model: optional values, thrown errors, and the
    JavaScript string operations the handlers rely on (`trim`, `split`,
    `includes`, truthiness). */
module Common {

  /** A value that may be missing, as JavaScript's `undefined` or `null`. */
  datatype Option<+T> = None | Some(value: T)

  /** The outcome of a call that may throw; `message` is the thrown `Error`'s message. */
  datatype Result<+T> = Ok(value: T) | Err(message: string)

  /** A promise that was not awaited: the caller holds the promise object itself,
      and `settled` is the value it will eventually resolve to. */
  datatype Promise<+T> = Promise(settled: T)

  /** JavaScript truthiness of an object: every object, promises included, is truthy. */
  predicate ObjectTruthy<T>(p: Promise<T>) {
    true
  }

  /** JavaScript truthiness of an optional string: `undefined`, `null` and `""` are falsy. */
  predicate Truthy(v: Option<string>) {
    v.Some? && v.value != ""
  }

  /** `a || b` on optional strings. */
  function Or(a: Option<string>, b: string): string {
    if Truthy(a) then a.value else b
  }

  // ---------------------------------------------------------------------------
  // String.prototype.trim
  // ---------------------------------------------------------------------------

  /** The characters `trim` removes: ECMAScript WhiteSpace and LineTerminator. */
  const WhitespaceChars: set<char> := {
    '\t', '\n', '\U{000B}', '\U{000C}', '\r', ' ', '\U{00A0}', '\U{1680}',
    '\U{2000}', '\U{2001}', '\U{2002}', '\U{2003}', '\U{2004}', '\U{2005}',
    '\U{2006}', '\U{2007}', '\U{2008}', '\U{2009}', '\U{200A}',
    '\U{2028}', '\U{2029}', '\U{202F}', '\U{205F}', '\U{3000}', '\U{FEFF}'
  }

  predicate IsWhitespace(c: char) {
    c in WhitespaceChars
  }

  predicate AllWhitespace(s: string) {
    forall i :: 0 <= i < |s| ==> IsWhitespace(s[i])
  }

  /** Every character of `s` at positions `lo` up to `hi` is whitespace. */
  predicate WhitespaceBetween(s: string, lo: int, hi: int) {
    forall i :: lo <= i < hi && 0 <= i < |s| ==> IsWhitespace(s[i])
  }

  /** The first position at or after `i` that does not hold whitespace. */
  function SkipWhitespace(s: string, i: nat): (k: nat)
    requires i <= |s|
    ensures i <= k <= |s|
    ensures WhitespaceBetween(s, i, k)
    ensures k < |s| ==> !IsWhitespace(s[k])
    decreases |s| - i
  {
    if i < |s| && IsWhitespace(s[i]) then SkipWhitespace(s, i + 1) else i
  }

  /** The position just after the last non-whitespace character in `s[lo..j]`,
      or `lo` when there is none. */
  function BackWhitespace(s: string, lo: nat, j: nat): (e: nat)
    requires lo <= j <= |s|
    ensures lo <= e <= j
    ensures WhitespaceBetween(s, e, j)
    ensures lo < e ==> !IsWhitespace(s[e - 1])
    decreases j
  {
    if lo < j && IsWhitespace(s[j - 1]) then BackWhitespace(s, lo, j - 1) else j
  }

  /** `s.trim()`: the infix of `s` that neither starts nor ends with whitespace,
      everything around it being whitespace. */
  function Trim(s: string): (r: string)
    ensures SkipWhitespace(s, 0) + |r| <= |s|
    ensures r == s[SkipWhitespace(s, 0)..SkipWhitespace(s, 0) + |r|]
    ensures WhitespaceBetween(s, 0, SkipWhitespace(s, 0))
    ensures WhitespaceBetween(s, SkipWhitespace(s, 0) + |r|, |s|)
    ensures r != [] ==> !IsWhitespace(r[0]) && !IsWhitespace(r[|r| - 1])
    ensures r == [] <==> AllWhitespace(s)
  {
    var lo := SkipWhitespace(s, 0);
    var hi := BackWhitespace(s, lo, |s|);
    s[lo..hi]
  }

  /** Whitespace skipping stops exactly at the first non-whitespace character. */
  lemma SkipWhitespaceStops(s: string, i: nat, k: nat)
    requires i <= k <= |s| && WhitespaceBetween(s, i, k)
    requires k < |s| ==> !IsWhitespace(s[k])
    ensures SkipWhitespace(s, i) == k
  {
  }

  /** Backing over whitespace stops exactly after the last non-whitespace character. */
  lemma BackWhitespaceStops(s: string, lo: nat, j: nat, e: nat)
    requires lo <= e <= j <= |s| && WhitespaceBetween(s, e, j)
    requires lo < e ==> !IsWhitespace(s[e - 1])
    ensures BackWhitespace(s, lo, j) == e
  {
  }

  /** Whitespace added on both sides of a trimmed string is exactly what `trim` removes. */
  lemma {:induction false} TrimPadded(pre: string, core: string, post: string)
    requires AllWhitespace(pre) && AllWhitespace(post)
    requires core != [] ==> !IsWhitespace(core[0]) && !IsWhitespace(core[|core| - 1])
    ensures Trim(pre + core + post) == core
  {
    var s := pre + core + post;
    var lo := |pre|;
    var hi := |pre| + |core|;
    forall i | 0 <= i < lo ensures IsWhitespace(s[i]) {
      assert s[i] == pre[i];
    }
    forall i | hi <= i < |s| ensures IsWhitespace(s[i]) {
      assert s[i] == post[i - hi];
    }
    if core == [] {
      assert AllWhitespace(s);
    } else {
      assert s[lo] == core[0] && s[hi - 1] == core[|core| - 1];
      SkipWhitespaceStops(s, 0, lo);
      BackWhitespaceStops(s, lo, |s|, hi);
      assert s[lo..hi] == core;
    }
  }

  /** A word with no whitespace at either end is its own trim. */
  lemma TrimPlainWord(w: string)
    requires w != [] && !IsWhitespace(w[0]) && !IsWhitespace(w[|w| - 1])
    ensures Trim(w) == w && !AllWhitespace(w)
  {
    TrimPadded("", w, "");
    assert "" + w + "" == w;
  }

  /** Trimming a string that is already trimmed changes nothing. */
  lemma TrimIdempotent(s: string)
    ensures Trim(Trim(s)) == Trim(s)
  {
    var r := Trim(s);
    if r != [] {
      TrimPlainWord(r);
    }
  }

  // ---------------------------------------------------------------------------
  // String.prototype.includes
  // ---------------------------------------------------------------------------

  /** `s.includes(sub)`: `sub` occurs in `s` at some position. */
  predicate Contains(s: string, sub: string)
    decreases |s|
  {
    sub <= s || (s != [] && Contains(s[1..], sub))
  }

  /** A string never contains a longer one. */
  lemma {:induction false} ContainsNeedsRoom(s: string, sub: string)
    requires Contains(s, sub)
    ensures |sub| <= |s|
    decreases |s|
  {
    if !(sub <= s) {
      ContainsNeedsRoom(s[1..], sub);
    }
  }

  /** Whatever surrounds it, a string contains each of its infixes. */
  lemma {:induction false} ContainsInfix(pre: string, sub: string, post: string)
    ensures Contains(pre + sub + post, sub)
    decreases |pre|
  {
    if pre != [] {
      assert (pre + sub + post)[1..] == pre[1..] + sub + post;
      ContainsInfix(pre[1..], sub, post);
    } else {
      assert pre + sub + post == sub + post;
    }
  }

  // ---------------------------------------------------------------------------
  // String.prototype.split with a one-character separator
  // ---------------------------------------------------------------------------

  /** `s.split(sep)`: the maximal separator-free pieces of `s`, in order. */
  function Split(s: string, sep: char): (parts: seq<string>)
    ensures |parts| >= 1
    ensures forall i :: 0 <= i < |parts| ==> sep !in parts[i]
    decreases |s|
  {
    if s == [] then [""]
    else
      var rest := Split(s[1..], sep);
      if s[0] == sep then [""] + rest
      else [[s[0]] + rest[0]] + rest[1..]
  }

  /** `parts.join(sep)`. */
  function Join(parts: seq<string>, sep: char): string
    requires |parts| >= 1
    decreases |parts|
  {
    if |parts| == 1 then parts[0] else parts[0] + [sep] + Join(parts[1..], sep)
  }

  /** Joining the pieces back with the separator restores the string. */
  lemma {:induction false} JoinSplit(s: string, sep: char)
    ensures Join(Split(s, sep), sep) == s
    decreases |s|
  {
    if s != [] {
      JoinSplit(s[1..], sep);
      var rest := Split(s[1..], sep);
      if s[0] == sep {
        assert ([""] + rest)[1..] == rest;
      } else {
        var parts := [[s[0]] + rest[0]] + rest[1..];
        if |rest| == 1 {
          assert Join(parts, sep) == [s[0]] + rest[0];
        } else {
          assert parts[1..] == rest[1..];
          assert Join(rest, sep) == rest[0] + [sep] + Join(rest[1..], sep);
          assert Join(parts, sep) == [s[0]] + Join(rest, sep);
        }
        assert [s[0]] + s[1..] == s;
      }
    }
  }

  /** A separator-free string is a single piece. */
  lemma {:induction false} SplitPlain(s: string, sep: char)
    requires sep !in s
    ensures Split(s, sep) == [s]
    decreases |s|
  {
    if s != [] {
      assert sep !in s[1..] by {
        forall c | c in s[1..] ensures c != sep {
          var i :| 0 <= i < |s[1..]| && s[1..][i] == c;
          assert s[i + 1] == c;
        }
      }
      SplitPlain(s[1..], sep);
      assert [s[0]] + s[1..] == s;
    }
  }

  /** Splitting at the first separator peels off the separator-free prefix. */
  lemma {:induction false} SplitFirst(a: string, sep: char, b: string)
    requires sep !in a
    ensures Split(a + [sep] + b, sep) == [a] + Split(b, sep)
    decreases |a|
  {
    var s := a + [sep] + b;
    if a == [] {
      assert s[0] == sep && s[1..] == b;
    } else {
      assert s[0] == a[0] && s[1..] == a[1..] + [sep] + b;
      assert sep !in a[1..] by {
        forall c | c in a[1..] ensures c != sep {
          var i :| 0 <= i < |a[1..]| && a[1..][i] == c;
          assert a[i + 1] == c;
        }
      }
      SplitFirst(a[1..], sep, b);
      assert [a[0]] + a[1..] == a;
    }
  }

  /** Splitting separator-free pieces joined by the separator gives the pieces back. */
  lemma {:induction false} SplitJoin(parts: seq<string>, sep: char)
    requires |parts| >= 1
    requires forall i :: 0 <= i < |parts| ==> sep !in parts[i]
    ensures Split(Join(parts, sep), sep) == parts
    decreases |parts|
  {
    if |parts| == 1 {
      SplitPlain(parts[0], sep);
    } else {
      SplitJoin(parts[1..], sep);
      SplitFirst(parts[0], sep, Join(parts[1..], sep));
      assert [parts[0]] + parts[1..] == parts;
    }
  }
}

=== FILE: crypto.dfy ===
/** Password hashing, session tokens and bearer-header authentication
    (src/auth.js). Argon2 and the JWT signature scheme are not modelled:
    Argon2 is a pair of oracles, and a signed token is represented by its
    decoded contents together with the key it was signed with. */
module Crypto {
  import opened Common

  /** Message of the error `hashPassword` throws when Argon2 fails. */
  const HashingFailed := "Password hashing failed"
  /** Message of the error for a request without a usable bearer token. */
  const TokenRequired := "Access token required"
  /** Message of the error for a token that does not verify. */
  const TokenInvalid := "Invalid token"

  /** Seconds in the `'7d'` expiry passed to `jwt.sign`. */
  const TokenLifetime: int := 7 * 24 * 60 * 60

  /** The process-wide signing secret; the process refuses to start without a non-empty one. */
  type Secret = s: string | s != [] witness "k"

  /** `argon2.hash` for this call (salted, so it stands for one call's outcome):
      the encoded hash, or `None` when the primitive throws. */
  type Argon2Hash = string -> Option<string>

  /** `argon2.verify(hash, password)`: `Some(matches)`, or `None` when it throws. */
  type Argon2Verify = (string, string) -> Option<bool>

  /** The identity claims carried by a token. `role` is absent when the
      payload's `role` was `undefined`. */
  datatype Claims = Claims(id: int, username: string, role: Option<string>)

  /** A signed JSON Web Token: its claims, `iat` and `exp` in seconds since the
      epoch, and the key the signature was made with. */
  datatype Jwt = Jwt(claims: Claims, issuedAt: int, expiresAt: int, signingKey: string)

  /** `hashPassword`: the Argon2 hash of the password, or the single error
      "Password hashing failed"; there is no fallback that yields anything else. */
  function HashPassword(argon2: Argon2Hash, password: string): (r: Result<string>)
    ensures r.Ok? <==> argon2(password).Some?
    ensures r.Ok? ==> r.value == argon2(password).value
    ensures r.Err? ==> r.message == HashingFailed
  {
    match argon2(password)
    case Some(h) => Ok(h)
    case None => Err(HashingFailed)
  }

  /** `verifyPassword`: true only when Argon2 positively reports a match; an
      internal error reads as a mismatch. */
  function VerifyPassword(argon2: Argon2Verify, hash: string, password: string): (ok: bool)
    ensures ok <==> argon2(hash, password) == Some(true)
    ensures argon2(hash, password).None? ==> !ok
  {
    match argon2(hash, password)
    case Some(b) => b
    case None => false
  }

  /** Whole seconds since the epoch, as `Math.floor(Date.now() / 1000)`. */
  function EpochSeconds(nowMs: int): (sec: int)
    ensures sec * 1000 <= nowMs < sec * 1000 + 1000
  {
    nowMs / 1000
  }

  /** `generateToken`: signs the payload with the secret, valid for seven days
      from the second it was issued. */
  function GenerateToken(secret: Secret, payload: Claims, nowMs: int): (t: Jwt)
    ensures t.claims == payload && t.signingKey == secret
    ensures t.issuedAt * 1000 <= nowMs < t.issuedAt * 1000 + 1000
    ensures t.expiresAt - t.issuedAt == 7 * 86400
  {
    var iat := EpochSeconds(nowMs);
    Jwt(payload, iat, iat + TokenLifetime, secret)
  }

  /** `jwt.verify`: the claims of a well-formed token signed with the secret
      whose expiry is still ahead; otherwise nothing. */
  function JwtVerify(secret: Secret, decoded: Option<Jwt>, nowMs: int): (claims: Option<Claims>)
    ensures claims.Some? <==>
      decoded.Some? && decoded.value.signingKey == secret && EpochSeconds(nowMs) < decoded.value.expiresAt
    ensures claims.Some? ==> claims.value == decoded.value.claims
  {
    match decoded
    case None => None
    case Some(t) =>
      if t.signingKey == secret && EpochSeconds(nowMs) < t.expiresAt then Some(t.claims) else None
  }

  /** `authHeader && authHeader.split(' ')[1]`, falsy results mapped to `None`:
      the second space-separated word of the header, whatever the first word is. */
  function BearerToken(header: Option<string>): (token: Option<string>)
    ensures token.Some? ==> token.value != "" && ' ' !in token.value
    ensures token.Some? <==>
      Truthy(header) && |Split(header.value, ' ')| >= 2 && Split(header.value, ' ')[1] != ""
    ensures token.Some? ==> token.value == Split(header.value, ' ')[1]
  {
    if !Truthy(header) then None
    else
      var parts := Split(header.value, ' ');
      if |parts| < 2 || parts[1] == "" then None else Some(parts[1])
  }

  /** `authenticateToken`: the verified claims, or the error the middleware
      turns into a 401. `decode` reads a token's text (`None`: malformed). */
  function AuthenticateToken(header: Option<string>, secret: Secret, nowMs: int,
                             decode: string -> Option<Jwt>): (r: Result<Claims>)
    ensures BearerToken(header).None? <==> r == Err(TokenRequired)
    ensures r.Err? ==> r.message == TokenRequired || r.message == TokenInvalid
    ensures r.Ok? <==>
      && BearerToken(header).Some?
      && decode(BearerToken(header).value).Some?
      && decode(BearerToken(header).value).value.signingKey == secret
      && EpochSeconds(nowMs) < decode(BearerToken(header).value).value.expiresAt
    ensures r.Ok? ==>
      && BearerToken(header).Some?
      && decode(BearerToken(header).value).Some?
      && var t := decode(BearerToken(header).value).value;
      && t.signingKey == secret && EpochSeconds(nowMs) < t.expiresAt && r.value == t.claims
  {
    match BearerToken(header)
    case None => Err(TokenRequired)
    case Some(token) =>
      match JwtVerify(secret, decode(token), nowMs)
      case Some(claims) => Ok(claims)
      case None => Err(TokenInvalid)
  }

  /** The header word after the first space is the token, whatever the scheme
      word before it says. */
  lemma BearerTokenOfTwoWords(scheme: string, token: string)
    requires ' ' !in scheme && ' ' !in token && token != ""
    ensures BearerToken(Some(scheme + " " + token)) == Some(token)
  {
    SplitJoin([scheme, token], ' ');
    assert Join([scheme, token], ' ') == scheme + " " + token;
  }

  /** A bare scheme word, or a double space before the token, gives no token. */
  lemma BearerTokenMissing(scheme: string, token: string)
    requires ' ' !in scheme && ' ' !in token
    ensures BearerToken(Some(scheme)) == None
    ensures BearerToken(Some(scheme + "  " + token)) == None
  {
    SplitPlain(scheme, ' ');
    var parts := [scheme, "", token];
    SplitJoin(parts, ' ');
    assert parts[1..][1..] == [token];
    assert Join(parts[1..], ' ') == "" + " " + token;
    assert Join(parts, ' ') == scheme + "  " + token;
  }

  /** A token issued by `generateToken`, presented as `<scheme> <token>` before
      it expires, authenticates as exactly the claims it was issued for; at or
      after its expiry second it is rejected as "Invalid token". */
  lemma IssuedTokenAuthenticates(secret: Secret, claims: Claims, issuedMs: int, nowMs: int,
                                 scheme: string, text: string, decode: string -> Option<Jwt>)
    requires ' ' !in scheme && ' ' !in text && text != ""
    requires decode(text) == Some(GenerateToken(secret, claims, issuedMs))
    ensures EpochSeconds(nowMs) < EpochSeconds(issuedMs) + TokenLifetime ==>
      AuthenticateToken(Some(scheme + " " + text), secret, nowMs, decode) == Ok(claims)
    ensures EpochSeconds(nowMs) >= EpochSeconds(issuedMs) + TokenLifetime ==>
      AuthenticateToken(Some(scheme + " " + text), secret, nowMs, decode) == Err(TokenInvalid)
  {
    BearerTokenOfTwoWords(scheme, text);
  }

  /** A token signed with any other key is rejected, however fresh it is. */
  lemma ForeignTokenRejected(secret: Secret, other: Secret, claims: Claims, issuedMs: int, nowMs: int,
                             scheme: string, text: string, decode: string -> Option<Jwt>)
    requires other != secret
    requires ' ' !in scheme && ' ' !in text && text != ""
    requires decode(text) == Some(GenerateToken(other, claims, issuedMs))
    ensures AuthenticateToken(Some(scheme + " " + text), secret, nowMs, decode) == Err(TokenInvalid)
  {
    BearerTokenOfTwoWords(scheme, text);
  }
}

=== FILE: http.dfy ===
/** The JSON responses the route handlers send, with their status codes. */
module Http {
  import opened Common
  import Crypto

  /** Body of every response to an unexpected failure. */
  const InternalError := "Internal server error"

  /** `user: {id, username, role}`; a `role` of `undefined` is dropped from the JSON. */
  datatype UserView = UserView(id: int, username: string, role: Option<string>)

  /** A sale as returned to the client; `createdAt` is only present in listings. */
  datatype SaleView = SaleView(id: int, itemDescription: string, amountCents: int, commissionCents: int,
                               timestamp: int, photoPath: Option<string>, status: string, createdAt: Option<int>)

  datatype Body =
    | ErrorBody(error: string)
    | AuthBody(message: string, token: Crypto.Jwt, user: UserView)
    | SaleBody(message: string, sale: SaleView)
    | SalesBody(message: string, sales: seq<SaleView>)

  datatype Response = Response(status: int, body: Body)

  function Failure(status: int, error: string): Response {
    Response(status, ErrorBody(error))
  }
}

=== FILE: login_attempts.dfy ===
/** The login audit trail (src/models/LoginAttempt.js): an append-only table
    of attempts whose `username` is free text, not a reference to `users`
    (src/database/init.js). */
module LoginAttempts {

  /** A row of `login_attempts`; `success` is stored as the integer 1 or 0. */
  datatype AttemptRow = AttemptRow(id: int, username: string, success: int, ipAddress: string, createdAt: int)

  /** The table: rows in insertion order and the id the next insert receives. */
  datatype AttemptLog = AttemptLog(rows: seq<AttemptRow>, nextId: int)

  /** Ids are assigned in increasing order below `nextId`. */
  predicate Valid(log: AttemptLog) {
    && (forall i, j :: 0 <= i < j < |log.rows| ==> log.rows[i].id < log.rows[j].id)
    && (forall i :: 0 <= i < |log.rows| ==> log.rows[i].id < log.nextId)
  }

  /** The empty table of a freshly provisioned database. */
  const Empty := AttemptLog([], 1)

  /** `LoginAttempt.log`: issues one insert and returns nothing, so a caller's
      `await` does not wait for it and no error can reach the caller. When the
      insert succeeds (`inserted`) exactly one row is appended, with the
      username as given and `success` as 1 or 0; when it fails the error is
      only reported and the table is unchanged. */
  function Log(log: AttemptLog, username: string, success: bool, ipAddress: string,
               inserted: bool, now: int): (log': AttemptLog)
    requires Valid(log)
    ensures Valid(log')
    ensures inserted ==> |log'.rows| == |log.rows| + 1 && log'.rows[..|log.rows|] == log.rows
    ensures inserted ==>
      var row := log'.rows[|log.rows|];
      && (forall i :: 0 <= i < |log.rows| ==> log.rows[i].id != row.id)
      && row.username == username && row.ipAddress == ipAddress && row.createdAt == now
      && (row.success == 1 <==> success) && (row.success == 0 <==> !success)
    ensures !inserted ==> log' == log
  {
    if inserted then
      AttemptLog(log.rows + [AttemptRow(log.nextId, username, if success then 1 else 0, ipAddress, now)],
                 log.nextId + 1)
    else log
  }
}

=== FILE: money.dfy ===
/** Money arithmetic of sale creation (src/routes/sales.js): dollars become
    integer cents and a 2% commission is derived, both with `Math.round`.
    Amounts are exact reals; IEEE-754 rounding of the products is not modelled. */
module Money {

  /** The commission rate applied to a sale's amount. */
  const CommissionRate: real := 0.02

  /** `Math.round`: the nearest integer, halves rounded towards +infinity. */
  function Round(x: real): (n: int)
    ensures n as real - 0.5 <= x < n as real + 0.5
  {
    (x + 0.5).Floor
  }

  /** `Math.round(amount * 100)`: the whole number of cents nearest the amount. */
  function AmountCents(dollars: real): (cents: int)
    ensures cents as real - 0.5 <= dollars * 100.0 < cents as real + 0.5
  {
    Round(dollars * 100.0)
  }

  /** `Math.round(amountCents * 0.02)`: the whole number of cents nearest 2% of the amount. */
  function CommissionCents(cents: int): (commission: int)
    ensures commission as real - 0.5 <= cents as real * CommissionRate < commission as real + 0.5
  {
    Round(cents as real * CommissionRate)
  }

  /** The commission in integer arithmetic alone: `(cents + 25) / 50`. */
  lemma CommissionIsIntegerRounding(cents: int)
    ensures CommissionCents(cents) == (cents + 25) / 50
  {
    var q := (cents + 25) / 50;
    var m := (cents + 25) % 50;
    assert cents + 25 == 50 * q + m && 0 <= m < 50;
    assert cents as real * CommissionRate + 0.5 == q as real + m as real / 50.0;
  }

  /** For a non-negative amount the commission is non-negative and never exceeds the amount. */
  lemma CommissionBounds(cents: int)
    requires cents >= 0
    ensures 0 <= CommissionCents(cents) <= cents
  {
    CommissionIsIntegerRounding(cents);
  }

  /** A positive amount gives a non-negative number of cents, possibly zero. */
  lemma PositiveAmountCents(dollars: real)
    requires dollars > 0.0
    ensures AmountCents(dollars) >= 0
    ensures dollars < 0.005 ==> AmountCents(dollars) == 0
  {
  }

  /** Worked values: $19.999 is 2000 cents with 40 cents commission; $0.004 is 0 cents. */
  lemma Examples()
    ensures AmountCents(19.999) == 2000 && CommissionCents(2000) == 40
    ensures AmountCents(0.004) == 0 && CommissionCents(0) == 0
    ensures CommissionCents(25) == 1 && CommissionCents(24) == 0
  {
    CommissionIsIntegerRounding(2000);
    CommissionIsIntegerRounding(25);
    CommissionIsIntegerRounding(24);
    CommissionIsIntegerRounding(0);
  }
}

=== FILE: sales_ledger.dfy ===
/** The sale ledger (src/models/Sale.js): an append-only table of sales with
    an AUTOINCREMENT id and a store-assigned `created_at` (src/database/init.js).
    There is no update and no delete. */
module SalesLedger {
  import opened Common

  /** A row of `sales`. `timestamp` is the submission instant in epoch
      milliseconds; `createdAt` is the store's own clock. */
  datatype SaleRow = SaleRow(id: int, userId: int, itemDescription: string, amountCents: int,
                             commissionCents: int, timestamp: int, photoPath: Option<string>,
                             createdAt: int)

  /** The ledger: rows in insertion order and the id the next insert receives. */
  datatype Ledger = Ledger(rows: seq<SaleRow>, nextId: int)

  /** Ids are assigned in increasing order below `nextId`. */
  predicate Valid(l: Ledger) {
    && (forall i, j :: 0 <= i < j < |l.rows| ==> l.rows[i].id < l.rows[j].id)
    && (forall i :: 0 <= i < |l.rows| ==> l.rows[i].id < l.nextId)
  }

  predicate HasId(l: Ledger, id: int) {
    exists i :: 0 <= i < |l.rows| && l.rows[i].id == id
  }

  /** The empty ledger of a freshly provisioned database. */
  const Empty := Ledger([], 1)

  /** `Sale.create`: append one row with the six given fields and return only
      its new id; a store `fault` rejects the insert and nothing is written. */
  function Create(l: Ledger, userId: int, itemDescription: string, amountCents: int, commissionCents: int,
                  timestamp: int, photoPath: Option<string>, fault: Option<string>, now: int)
    : (out: (Ledger, Result<int>))
    requires Valid(l)
    ensures Valid(out.0)
    ensures out.1.Ok? <==> fault.None?
    ensures out.1.Err? ==> out.0 == l
    ensures out.1.Ok? ==>
      && !HasId(l, out.1.value)
      && out.0.rows == l.rows + [SaleRow(out.1.value, userId, itemDescription, amountCents,
                                         commissionCents, timestamp, photoPath, now)]
  {
    if fault.Some? then (l, Err(fault.value))
    else
      var row := SaleRow(l.nextId, userId, itemDescription, amountCents, commissionCents, timestamp, photoPath, now);
      (Ledger(l.rows + [row], l.nextId + 1), Ok(row.id))
  }

  /** The rows of one user, in ledger order (`WHERE user_id = ?`). */
  function OwnedBy(rows: seq<SaleRow>, userId: int): (r: seq<SaleRow>)
    ensures forall x :: x in r <==> x in rows && x.userId == userId
    ensures |r| <= |rows|
  {
    if rows == [] then []
    else if rows[|rows| - 1].userId == userId then OwnedBy(rows[..|rows| - 1], userId) + [rows[|rows| - 1]]
    else OwnedBy(rows[..|rows| - 1], userId)
  }

  /** `ORDER BY created_at DESC`. */
  predicate NewestFirst(s: seq<SaleRow>) {
    forall i, j :: 0 <= i < j < |s| ==> s[i].createdAt >= s[j].createdAt
  }

  /** Places a row into a newest-first sequence. */
  function Insert(x: SaleRow, s: seq<SaleRow>): (r: seq<SaleRow>)
    requires NewestFirst(s)
    ensures NewestFirst(r)
    ensures multiset(r) == multiset(s) + multiset{x}
  {
    if s == [] || x.createdAt >= s[0].createdAt then [x] + s
    else
      var tail := Insert(x, s[1..]);
      InsertBehind(x, s, tail);
      [s[0]] + tail
  }

  /** The newest row stays in front of a tail that received an older row. */
  lemma InsertBehind(x: SaleRow, s: seq<SaleRow>, tail: seq<SaleRow>)
    requires NewestFirst(s) && s != [] && x.createdAt < s[0].createdAt
    requires NewestFirst(tail) && multiset(tail) == multiset(s[1..]) + multiset{x}
    ensures NewestFirst([s[0]] + tail)
    ensures multiset([s[0]] + tail) == multiset(s) + multiset{x}
  {
    assert s == [s[0]] + s[1..];
    forall j | 0 <= j < |tail| ensures s[0].createdAt >= tail[j].createdAt {
      assert tail[j] in multiset(tail);
      if tail[j] != x {
        assert tail[j] in multiset(s[1..]);
        var k :| 0 <= k < |s[1..]| && s[1..][k] == tail[j];
        assert s[k + 1] == tail[j];
      }
    }
    var r := [s[0]] + tail;
    forall i, j | 0 <= i < j < |r| ensures r[i].createdAt >= r[j].createdAt {
      assert r[j] == tail[j - 1];
      if i > 0 {
        assert r[i] == tail[i - 1];
      }
    }
  }

  /** The rows sorted newest-first; rows with equal `createdAt` may come in
      any order, and this model fixes one. */
  function SortNewestFirst(s: seq<SaleRow>): (r: seq<SaleRow>)
    ensures NewestFirst(r)
    ensures multiset(r) == multiset(s)
  {
    if s == [] then []
    else
      assert s == [s[0]] + s[1..];
      Insert(s[0], SortNewestFirst(s[1..]))
  }

  /** `Sale.findByUserId`: exactly the rows of that user, each as often as
      it is stored, newest `createdAt` first; a store `fault` is the only error.
      The ledger itself is not touched. */
  function FindByUserId(l: Ledger, userId: int, fault: bool): (r: Result<seq<SaleRow>>)
    ensures r.Err? <==> fault
    ensures r.Ok? ==> NewestFirst(r.value)
    ensures r.Ok? ==> multiset(r.value) == multiset(OwnedBy(l.rows, userId))
    ensures r.Ok? ==> forall x :: x in r.value <==> x in l.rows && x.userId == userId
  {
    if fault then Err("SQLITE_ERROR")
    else
      var r := SortNewestFirst(OwnedBy(l.rows, userId));
      assert forall x :: x in r <==> x in multiset(OwnedBy(l.rows, userId));
      Ok(r)
  }

  /** Round trip: a sale created for a user is listed for that user with the
      description, amounts, timestamp and photo it was created with. */
  lemma {:induction false} CreatedSaleIsListed(l: Ledger, userId: int, itemDescription: string, amountCents: int,
                                               commissionCents: int, timestamp: int, photoPath: Option<string>, now: int)
    requires Valid(l)
    ensures var out := Create(l, userId, itemDescription, amountCents, commissionCents, timestamp, photoPath, None, now);
      && out.1.Ok?
      && var listed := FindByUserId(out.0, userId, false).value;
      exists k :: 0 <= k < |listed| && listed[k] ==
        SaleRow(out.1.value, userId, itemDescription, amountCents, commissionCents, timestamp, photoPath, now)
  {
    var out := Create(l, userId, itemDescription, amountCents, commissionCents, timestamp, photoPath, None, now);
    var row := SaleRow(out.1.value, userId, itemDescription, amountCents, commissionCents, timestamp, photoPath, now);
    assert row == out.0.rows[|l.rows|];
    var listed := FindByUserId(out.0, userId, false).value;
    assert row in listed;
  }

  /** A sale created for one user leaves every other user's listing exactly as it was. */
  lemma {:induction false} OtherListingsUnchanged(l: Ledger, userId: int, itemDescription: string, amountCents: int,
                                                  commissionCents: int, timestamp: int, photoPath: Option<string>,
                                                  fault: Option<string>, now: int, other: int)
    requires Valid(l) && other != userId
    ensures var out := Create(l, userId, itemDescription, amountCents, commissionCents, timestamp, photoPath, fault, now);
      FindByUserId(out.0, other, false) == FindByUserId(l, other, false)
  {
    var out := Create(l, userId, itemDescription, amountCents, commissionCents, timestamp, photoPath, fault, now);
    if fault.None? {
      var rows := out.0.rows;
      assert rows[..|rows| - 1] == l.rows;
      assert OwnedBy(rows, other) == OwnedBy(l.rows, other);
    }
  }
}

=== FILE: sales_routes.dfy ===
/** The sale routes (src/routes/sales.js): `POST /createSale` and
    `GET /getSales`, each behind the bearer-token middleware. A handler is a
    function of the store, the request, the clock and the outcomes of the
    calls it makes to services outside the model. */
module SalesRoutes {
  import opened Common
  import Crypto
  import SalesLedger
  import Money
  import Db
  import opened Http

  const Required := "Item description and amount are required"
  const EmptyDescription := "Item description cannot be empty"
  const NotPositive := "Amount must be a positive number"
  const OutOfHours := "Sales can only be submitted between 07:00 and 21:00 UTC"
  const SaleCreated := "Sale created successfully"
  const SalesRetrieved := "Sales retrieved successfully"

  /** Every sale is reported as pending; no status is stored. */
  const Pending := "pending"

  /** Milliseconds in an hour and in a day. */
  const HourMs := 3_600_000
  const DayMs := 24 * HourMs

  /** The `amount` field of the body: absent, a text form field (with what
      `parseFloat` makes of it, `None` for NaN), or a JSON number. */
  datatype AmountField = NoAmount | AmountText(text: string, parsed: Option<real>) | AmountNumber(value: real)

  /** JavaScript truthiness of `amount`: "" and 0 are falsy, the text "0" is not. */
  predicate AmountTruthy(a: AmountField) {
    match a
    case NoAmount => false
    case AmountText(t, _) => t != ""
    case AmountNumber(v) => v != 0.0
  }

  /** `parseFloat(amount)`; `None` stands for NaN. */
  function ParseFloat(a: AmountField): Option<real> {
    match a
    case NoAmount => None
    case AmountText(_, p) => p
    case AmountNumber(v) => Some(v)
  }

  /** The uploaded receipt: none, or one whose upload to the image host
      yields a URL (`Some`) or fails (`None`). */
  datatype Receipt = NoReceipt | Receipt(upload: Option<string>)

  datatype SaleRequest = SaleRequest(itemDescription: Option<string>, amount: AmountField, receipt: Receipt)

  /** The payload once it has passed validation: the trimmed description and the amount in dollars. */
  datatype Payload = Payload(description: string, dollars: real)

  /** The payload checks, in the order the handler makes them. */
  function CheckPayload(req: SaleRequest): (r: Result<Payload>)
    ensures !Truthy(req.itemDescription) || !AmountTruthy(req.amount) <==> r == Err(Required)
    ensures r == Err(EmptyDescription) <==>
      Truthy(req.itemDescription) && AmountTruthy(req.amount) && AllWhitespace(req.itemDescription.value)
    ensures r == Err(NotPositive) <==>
      && Truthy(req.itemDescription) && AmountTruthy(req.amount) && !AllWhitespace(req.itemDescription.value)
      && (ParseFloat(req.amount).None? || ParseFloat(req.amount).value <= 0.0)
    ensures r.Ok? <==>
      && Truthy(req.itemDescription) && AmountTruthy(req.amount) && !AllWhitespace(req.itemDescription.value)
      && ParseFloat(req.amount).Some? && ParseFloat(req.amount).value > 0.0
    ensures r.Ok? ==>
      && r.value.description == Trim(req.itemDescription.value) && r.value.description != ""
      && ParseFloat(req.amount) == Some(r.value.dollars) && r.value.dollars > 0.0
  {
    if !Truthy(req.itemDescription) || !AmountTruthy(req.amount) then Err(Required)
    else if Trim(req.itemDescription.value) == "" then Err(EmptyDescription)
    else
      match ParseFloat(req.amount)
      case None => Err(NotPositive)
      case Some(x) => if x <= 0.0 then Err(NotPositive) else Ok(Payload(Trim(req.itemDescription.value), x))
  }

  /** `new Date(nowMs).getUTCHours()`. */
  function UtcHour(nowMs: int): (h: int)
    ensures 0 <= h < 24
    ensures h * HourMs <= nowMs % DayMs < (h + 1) * HourMs
  {
    (nowMs / HourMs) % 24
  }

  /** The hour of the day the clock shows at `h` o'clock plus `withinMs`
      milliseconds, on any day, before or after the epoch. */
  lemma UtcHourOfDay(day: int, h: int, withinMs: int)
    requires 0 <= h < 24 && 0 <= withinMs < HourMs
    ensures UtcHour(day * DayMs + h * HourMs + withinMs) == h
  {
    var t := day * DayMs + h * HourMs + withinMs;
    assert t == (day * 24 + h) * HourMs + withinMs;
    assert t / HourMs == day * 24 + h;
  }

  /** The business-hour gate of the handler: `hour < 7 || hour >= 21` rejects. */
  predicate InBusinessHours(hour: int)
    ensures InBusinessHours(hour) <==> 7 <= hour <= 20
  {
    !(hour < 7 || hour >= 21)
  }

  /** The gate opens at 07:00:00.000 UTC and closes after 20:59:59.999 UTC. */
  lemma BusinessHoursBoundaries(day: int)
    ensures InBusinessHours(UtcHour(day * DayMs + 7 * HourMs))
    ensures InBusinessHours(UtcHour(day * DayMs + 20 * HourMs + 3_599_999))
    ensures !InBusinessHours(UtcHour(day * DayMs + 6 * HourMs + 3_599_999))
    ensures !InBusinessHours(UtcHour(day * DayMs + 21 * HourMs))
    ensures forall h :: 0 <= h < 24 ==> (InBusinessHours(h) <==> 7 <= h <= 20)
  {
    UtcHourOfDay(day, 7, 0);
    UtcHourOfDay(day, 20, 3_599_999);
    UtcHourOfDay(day, 6, 3_599_999);
    UtcHourOfDay(day, 21, 0);
  }

  /** `photoPath`: the uploaded URL, or `null` when there is no receipt or its upload failed. */
  function PhotoPath(receipt: Receipt): (path: Option<string>)
    ensures path.Some? <==> receipt.Receipt? && receipt.upload.Some?
    ensures path.Some? ==> path == receipt.upload
  {
    match receipt
    case NoReceipt => None
    case Receipt(upload) => upload
  }

  /** How a stored row is presented to the client. */
  function View(row: SalesLedger.SaleRow, createdAt: Option<int>): SaleView {
    SaleView(row.id, row.itemDescription, row.amountCents, row.commissionCents, row.timestamp,
             row.photoPath, Pending, createdAt)
  }

  /** `POST /createSale`: authenticate, check the payload, apply the hour gate,
      derive the amounts, upload the receipt best-effort and append the sale.
      The token is checked by the middleware at `authMs`; the handler reads
      the clock again at `nowMs`, after the upload has been received. `fault`
      is the store's failure of the insert, if it fails; `dbNow` the store's
      clock. */
  function CreateSale(store: Db.Store, authorization: Option<string>, req: SaleRequest,
                      secret: Crypto.Secret, decode: string -> Option<Crypto.Jwt>, authMs: int, nowMs: int,
                      fault: Option<string>, dbNow: int): (out: (Db.Store, Response))
    requires Db.Valid(store)
    ensures Db.Valid(out.0)
    ensures out.0.users == store.users && out.0.attempts == store.attempts
    ensures out.1.status in {201, 400, 401, 500}
    ensures out.1.status == 401 <==> Crypto.AuthenticateToken(authorization, secret, authMs, decode).Err?
    ensures out.1.status == 400 <==>
      Crypto.AuthenticateToken(authorization, secret, authMs, decode).Ok?
      && (CheckPayload(req).Err? || !InBusinessHours(UtcHour(nowMs)))
    ensures out.1.status == 500 <==>
      && Crypto.AuthenticateToken(authorization, secret, authMs, decode).Ok?
      && CheckPayload(req).Ok? && InBusinessHours(UtcHour(nowMs)) && fault.Some?
    ensures out.1.status == 201 <==>
      && Crypto.AuthenticateToken(authorization, secret, authMs, decode).Ok?
      && CheckPayload(req).Ok? && InBusinessHours(UtcHour(nowMs)) && fault.None?
    ensures out.1.status == 401 ==>
      out.1.body == ErrorBody(Crypto.AuthenticateToken(authorization, secret, authMs, decode).message)
    ensures out.1.status == 400 ==>
      out.1.body == ErrorBody(if CheckPayload(req).Err? then CheckPayload(req).message else OutOfHours)
    ensures out.1.status == 500 ==> out.1.body == ErrorBody(InternalError)
    ensures out.1.status != 201 ==> out.0 == store
    ensures out.1.status == 201 ==>
      && out.1.body.SaleBody?
      && var sale := out.1.body.sale;
      && out.0.sales.rows == store.sales.rows + [SalesLedger.SaleRow(
           sale.id, Crypto.AuthenticateToken(authorization, secret, authMs, decode).value.id,
           sale.itemDescription, sale.amountCents, sale.commissionCents, sale.timestamp, sale.photoPath, dbNow)]
      && !SalesLedger.HasId(store.sales, sale.id)
      && sale.status == Pending && sale.createdAt.None?
  {
    match Crypto.AuthenticateToken(authorization, secret, authMs, decode)
    case Err(m) => (store, Failure(401, m))
    case Ok(user) =>
      match CheckPayload(req)
      case Err(m) => (store, Failure(400, m))
      case Ok(payload) =>
        if !InBusinessHours(UtcHour(nowMs)) then (store, Failure(400, OutOfHours))
        else
          var amountCents := Money.AmountCents(payload.dollars);
          var commissionCents := Money.CommissionCents(amountCents);
          var photoPath := PhotoPath(req.receipt);
          var (sales', created) := SalesLedger.Create(store.sales, user.id, payload.description, amountCents,
                                                      commissionCents, nowMs, photoPath, fault, dbNow);
          match created
          case Err(_) => (store, Failure(500, InternalError))
          case Ok(id) =>
            (store.(sales := sales'),
             Response(201, SaleBody(SaleCreated, SaleView(id, payload.description, amountCents, commissionCents,
                                                          nowMs, photoPath, Pending, None))))
  }

  /** `GET /getSales`: the caller's sales, newest first, each presented field
      for field with status "pending"; `fault` is a failure of the query. */
  function GetSales(store: Db.Store, authorization: Option<string>, secret: Crypto.Secret,
                    decode: string -> Option<Crypto.Jwt>, nowMs: int, fault: bool): (resp: Response)
    ensures resp.status in {200, 401, 500}
    ensures resp.status == 401 <==> Crypto.AuthenticateToken(authorization, secret, nowMs, decode).Err?
    ensures resp.status == 200 <==> Crypto.AuthenticateToken(authorization, secret, nowMs, decode).Ok? && !fault
    ensures resp.status == 401 ==>
      resp.body == ErrorBody(Crypto.AuthenticateToken(authorization, secret, nowMs, decode).message)
    ensures resp.status == 500 ==> resp.body == ErrorBody(InternalError)
    ensures resp.status == 200 ==>
      && resp.body.SalesBody?
      && var rows := SalesLedger.FindByUserId(store.sales, Crypto.AuthenticateToken(authorization, secret, nowMs, decode).value.id, false).value;
      && |resp.body.sales| == |rows|
      && forall i :: 0 <= i < |rows| ==>
           && resp.body.sales[i].id == rows[i].id
           && resp.body.sales[i].itemDescription == rows[i].itemDescription
           && resp.body.sales[i].amountCents == rows[i].amountCents
           && resp.body.sales[i].commissionCents == rows[i].commissionCents
           && resp.body.sales[i].timestamp == rows[i].timestamp
           && resp.body.sales[i].photoPath == rows[i].photoPath
           && resp.body.sales[i].status == Pending
           && resp.body.sales[i].createdAt == Some(rows[i].createdAt)
  {
    match Crypto.AuthenticateToken(authorization, secret, nowMs, decode)
    case Err(m) => Failure(401, m)
    case Ok(user) =>
      match SalesLedger.FindByUserId(store.sales, user.id, fault)
      case Err(_) => Failure(500, InternalError)
      case Ok(rows) =>
        Response(200, SalesBody(SalesRetrieved, seq(|rows|, i requires 0 <= i < |rows| => View(rows[i], Some(rows[i].createdAt)))))
  }

  /** The payload is checked before the clock: a bad payload gets its own
      error at any hour, and only a good one meets the hour gate, which
      rejects exactly outside 07:00-20:59 UTC. Nothing is written either way. */
  lemma {:induction false} CreateSaleCheckOrder(store: Db.Store, authorization: Option<string>, req: SaleRequest,
                                                secret: Crypto.Secret, decode: string -> Option<Crypto.Jwt>, authMs: int, nowMs: int,
                                                fault: Option<string>, dbNow: int)
    requires Db.Valid(store)
    requires Crypto.AuthenticateToken(authorization, secret, authMs, decode).Ok?
    ensures var out := CreateSale(store, authorization, req, secret, decode, authMs, nowMs, fault, dbNow);
      && (CheckPayload(req).Err? ==> out == (store, Failure(400, CheckPayload(req).message)))
      && (CheckPayload(req).Ok? ==>
            (out == (store, Failure(400, OutOfHours)) <==> !(7 <= UtcHour(nowMs) <= 20)))
  {
  }

  /** A recorded sale carries the trimmed description, the amount rounded to
      cents and a commission of `(cents + 25) / 50`, between 0 and the amount. */
  lemma {:induction false} CreateSaleAmounts(store: Db.Store, authorization: Option<string>, req: SaleRequest,
                                             secret: Crypto.Secret, decode: string -> Option<Crypto.Jwt>, authMs: int, nowMs: int,
                                             fault: Option<string>, dbNow: int)
    requires Db.Valid(store)
    requires CreateSale(store, authorization, req, secret, decode, authMs, nowMs, fault, dbNow).1.status == 201
    ensures var sale := CreateSale(store, authorization, req, secret, decode, authMs, nowMs, fault, dbNow).1.body.sale;
      && CheckPayload(req).Ok?
      && sale.itemDescription == Trim(req.itemDescription.value)
      && sale.amountCents == Money.AmountCents(CheckPayload(req).value.dollars)
      && sale.commissionCents == (sale.amountCents + 25) / 50
      && 0 <= sale.commissionCents <= sale.amountCents
      && sale.timestamp == nowMs && 7 <= UtcHour(nowMs) <= 20
      && sale.photoPath == PhotoPath(req.receipt)
  {
    var dollars := CheckPayload(req).value.dollars;
    Money.PositiveAmountCents(dollars);
    Money.CommissionIsIntegerRounding(Money.AmountCents(dollars));
    Money.CommissionBounds(Money.AmountCents(dollars));
  }

  /** A receipt whose upload fails does not stop the sale: it is recorded
      without a photo, exactly as if no receipt had been sent. */
  lemma {:induction false} FailedUploadStillRecordsSale(store: Db.Store, authorization: Option<string>,
                                                        description: Option<string>, amount: AmountField,
                                                        secret: Crypto.Secret, decode: string -> Option<Crypto.Jwt>,
                                                        authMs: int, nowMs: int, dbNow: int)
    requires Db.Valid(store)
    ensures CreateSale(store, authorization, SaleRequest(description, amount, Receipt(None)), secret, decode, authMs, nowMs, None, dbNow)
         == CreateSale(store, authorization, SaleRequest(description, amount, NoReceipt), secret, decode, authMs, nowMs, None, dbNow)
    ensures var out := CreateSale(store, authorization, SaleRequest(description, amount, Receipt(None)), secret, decode, authMs, nowMs, None, dbNow);
      out.1.status == 201 ==> out.1.body.sale.photoPath.None?
  {
  }

  /** $19.999 submitted at noon UTC is recorded as 2000 cents with 40 cents
      commission; the same sale at 22:00 UTC is refused and nothing is recorded. */
  lemma {:induction false} ScenarioNoonAndNight(store: Db.Store, authorization: Option<string>,
                                                secret: Crypto.Secret, decode: string -> Option<Crypto.Jwt>, authMs: int, day: int, dbNow: int)
    requires Db.Valid(store)
    requires Crypto.AuthenticateToken(authorization, secret, authMs, decode).Ok?
    ensures var req := SaleRequest(Some("Widget"), AmountText("19.999", Some(19.999)), NoReceipt);
      var noon := CreateSale(store, authorization, req, secret, decode, authMs, day * DayMs + 12 * HourMs, None, dbNow);
      var night := CreateSale(store, authorization, req, secret, decode, authMs, day * DayMs + 22 * HourMs, None, dbNow);
      && noon.1.status == 201 && noon.1.body.sale.amountCents == 2000 && noon.1.body.sale.commissionCents == 40
      && |noon.0.sales.rows| == |store.sales.rows| + 1
      && night == (store, Failure(400, OutOfHours))
  {
    var req := SaleRequest(Some("Widget"), AmountText("19.999", Some(19.999)), NoReceipt);
    TrimPlainWord("Widget");
    assert CheckPayload(req) == Ok(Payload("Widget", 19.999));
    UtcHourOfDay(day, 12, 0);
    UtcHourOfDay(day, 22, 0);
    Money.Examples();
  }

  /** A positive amount below half a cent is accepted and recorded as zero cents. */
  lemma {:induction false} TinyAmountAccepted(store: Db.Store, authorization: Option<string>,
                                              secret: Crypto.Secret, decode: string -> Option<Crypto.Jwt>, authMs: int, day: int, dbNow: int)
    requires Db.Valid(store)
    requires Crypto.AuthenticateToken(authorization, secret, authMs, decode).Ok?
    ensures var req := SaleRequest(Some("Pen"), AmountText("0.004", Some(0.004)), NoReceipt);
      var out := CreateSale(store, authorization, req, secret, decode, authMs, day * DayMs + 12 * HourMs, None, dbNow);
      out.1.status == 201 && out.1.body.sale.amountCents == 0 && out.1.body.sale.commissionCents == 0
  {
    var req := SaleRequest(Some("Pen"), AmountText("0.004", Some(0.004)), NoReceipt);
    TrimPlainWord("Pen");
    assert CheckPayload(req) == Ok(Payload("Pen", 0.004));
    UtcHourOfDay(day, 12, 0);
    Money.Examples();
  }

  /** An amount of zero is "required" as a JSON number but "not positive" as the text "0". */
  lemma ZeroAmountMessages(description: string, receipt: Receipt)
    requires !AllWhitespace(description)
    ensures CheckPayload(SaleRequest(Some(description), AmountNumber(0.0), receipt)) == Err(Required)
    ensures CheckPayload(SaleRequest(Some(description), AmountText("0", Some(0.0)), receipt)) == Err(NotPositive)
  {
  }

  /** Round trip through the routes: a sale created with `POST /createSale`
      appears in the same caller's `GET /getSales` with the values the
      creation response reported. */
  lemma {:induction false} CreatedSaleIsListedByRoutes(store: Db.Store, authorization: Option<string>, req: SaleRequest,
                                                       secret: Crypto.Secret, decode: string -> Option<Crypto.Jwt>,
                                                       authMs: int, nowMs: int, dbNow: int, laterMs: int)
    requires Db.Valid(store)
    requires CreateSale(store, authorization, req, secret, decode, authMs, nowMs, None, dbNow).1.status == 201
    requires Crypto.AuthenticateToken(authorization, secret, laterMs, decode)
          == Crypto.AuthenticateToken(authorization, secret, authMs, decode)
    ensures var out := CreateSale(store, authorization, req, secret, decode, authMs, nowMs, None, dbNow);
      var listing := GetSales(out.0, authorization, secret, decode, laterMs, false);
      && listing.status == 200
      && out.1.body.sale.(createdAt := Some(dbNow)) in listing.body.sales
  {
    var out := CreateSale(store, authorization, req, secret, decode, authMs, nowMs, None, dbNow);
    var sale := out.1.body.sale;
    var uid := Crypto.AuthenticateToken(authorization, secret, authMs, decode).value.id;
    var row := SalesLedger.SaleRow(sale.id, uid, sale.itemDescription, sale.amountCents, sale.commissionCents,
                                   sale.timestamp, sale.photoPath, dbNow);
    assert row == out.0.sales.rows[|store.sales.rows|];
    var rows := SalesLedger.FindByUserId(out.0.sales, uid, false).value;
    assert row in rows;
    var k :| 0 <= k < |rows| && rows[k] == row;
    var listing := GetSales(out.0, authorization, secret, decode, laterMs, false);
    assert listing.body.sales[k] == sale.(createdAt := Some(dbNow));
  }
}

=== FILE: scenarios.dfy ===
/** End-to-end runs of the handlers against a freshly provisioned database,
    with Argon2 and the clock supplied as parameters. */
module Scenarios {
  import opened Common
  import Crypto
  import Users
  import Db
  import opened Http
  import opened AuthRoutes
  import SalesRoutes
  import SalesLedger

  const AliceSignup := SignupRequest(Some("alice"), Some("Alice A"), Some("secret1"))

  function LoginAs(username: string, password: string): LoginRequest {
    LoginRequest(Some(username), Some(password), None, Some("10.0.0.1"))
  }

  /** Signing up "alice" on an empty database creates user 1 and returns a
      token for exactly that record. */
  lemma {:induction false} AliceSignsUp(argon2: Crypto.Argon2Hash, hash: string, secret: Crypto.Secret,
                                        t0: int, d0: int)
    requires argon2("secret1") == Some(hash)
    ensures var r1 := Signup(Db.Empty, AliceSignup, argon2, None, secret, t0, d0).1;
      && r1.status == 201
      && r1.body.user == UserView(1, "alice", Some("employee"))
      && r1.body.token.claims == Crypto.Claims(1, "alice", Some("employee"))
    ensures Signup(Db.Empty, AliceSignup, argon2, None, secret, t0, d0).0.users.rows
      == [Users.UserRow(1, "alice", "Alice A", hash, d0)]
  {
    AliceSignupAccepted();
    FirstSignup(AliceSignup, argon2, hash, secret, t0, d0);
  }

  lemma AliceSignupAccepted()
    ensures CheckSignup(AliceSignup).None?
    ensures Trim(AliceSignup.username.value) == "alice" && Trim(AliceSignup.fullName.value) == "Alice A"
  {
    TrimPlainWord("alice");
    TrimPlainWord("Alice A");
  }

  /** Signing up "alice" a second time is refused with 409 and changes nothing. */
  lemma {:induction false} AliceSignsUpTwice(argon2: Crypto.Argon2Hash, hash: string, secret: Crypto.Secret,
                                             t0: int, t1: int, d0: int, d1: int)
    requires argon2("secret1") == Some(hash)
    ensures var s1 := Signup(Db.Empty, AliceSignup, argon2, None, secret, t0, d0).0;
      Signup(s1, AliceSignup, argon2, None, secret, t1, d1) == (s1, Failure(409, UsernameExists))
  {
    var s1 := Signup(Db.Empty, AliceSignup, argon2, None, secret, t0, d0).0;
    AliceSignsUp(argon2, hash, secret, t0, d0);
    assert s1.users.rows[0].username == "alice";
    AliceSignupAccepted();
    SecondSignupRefused(s1, AliceSignup, argon2, secret, t1, d1);
  }

  /** The first account on an empty database gets id 1. */
  lemma {:induction false} FirstSignup(req: SignupRequest, argon2: Crypto.Argon2Hash, hash: string,
                                       secret: Crypto.Secret, t0: int, d0: int)
    requires CheckSignup(req).None? && argon2(req.password.value) == Some(hash)
    ensures var (s1, r1) := Signup(Db.Empty, req, argon2, None, secret, t0, d0);
      && r1.status == 201
      && r1.body.user == UserView(1, Trim(req.username.value), Some("employee"))
      && r1.body.token.claims == Crypto.Claims(1, Trim(req.username.value), Some("employee"))
      && s1.users.rows == [Users.UserRow(1, Trim(req.username.value), Trim(req.fullName.value), hash, d0)]
  {
    assert !Users.Taken(Db.Empty.users, Trim(req.username.value));
  }

  /** Whoever is in the table, signing up their name again is refused. */
  lemma {:induction false} SecondSignupRefused(s1: Db.Store, req: SignupRequest, argon2: Crypto.Argon2Hash,
                                               secret: Crypto.Secret, t1: int, d1: int)
    requires Db.Valid(s1) && CheckSignup(req).None? && argon2(req.password.value).Some?
    requires |s1.users.rows| >= 1 && s1.users.rows[0].username == Trim(req.username.value)
    ensures Signup(s1, req, argon2, None, secret, t1, d1) == (s1, Failure(409, UsernameExists))
  {
    assert Users.Taken(s1.users, Trim(req.username.value));
    RegisterFailures(s1, req, argon2, None, secret, t1, d1);
  }

  /** After alice signed up: her password logs her in; a wrong password and
      an unknown username get the identical 401; as written, the wrong
      password logs her in too. */
  lemma {:induction false} LoginOutcomes(argon2: Crypto.Argon2Hash, verify: Crypto.Argon2Verify, hash: string,
                                         secret: Crypto.Secret, t0: int, t1: int, d0: int, d1: int)
    requires argon2("secret1") == Some(hash)
    requires verify(hash, "secret1") == Some(true) && verify(hash, "wrongpw") == Some(false)
    ensures var s1 := Signup(Db.Empty, AliceSignup, argon2, None, secret, t0, d0).0;
      && Login(s1, LoginAs("alice", "secret1"), verify, false, true, secret, t1, d1).1.status == 200
      && Login(s1, LoginAs("alice", "wrongpw"), verify, false, true, secret, t1, d1).1 == Rejected
      && Login(s1, LoginAs("nosuchuser", "x"), verify, false, true, secret, t1, d1).1 == Rejected
      && LoginAsWritten(s1, LoginAs("alice", "wrongpw"), verify, false, true, secret, t1, d1).1.status == 200
  {
    AliceSignsUp(argon2, hash, secret, t0, d0);
    var s1 := Signup(Db.Empty, AliceSignup, argon2, None, secret, t0, d0).0;
    AliceOnlyLogins(s1, verify, hash, secret, t1, d0, d1);
  }

  lemma {:induction false} AliceOnlyLogins(s1: Db.Store, verify: Crypto.Argon2Verify, hash: string,
                                           secret: Crypto.Secret, t1: int, d0: int, d1: int)
    requires Db.Valid(s1) && s1.users.rows == [Users.UserRow(1, "alice", "Alice A", hash, d0)]
    requires verify(hash, "secret1") == Some(true) && verify(hash, "wrongpw") == Some(false)
    ensures Login(s1, LoginAs("alice", "secret1"), verify, false, true, secret, t1, d1).1.status == 200
    ensures Login(s1, LoginAs("alice", "wrongpw"), verify, false, true, secret, t1, d1).1 == Rejected
    ensures Login(s1, LoginAs("nosuchuser", "x"), verify, false, true, secret, t1, d1).1 == Rejected
    ensures LoginAsWritten(s1, LoginAs("alice", "wrongpw"), verify, false, true, secret, t1, d1).1.status == 200
  {
    AliceLogins(s1, verify, hash, secret, t1, d0, d1);
    NoSuchUserRejected(s1, secret, verify, t1, d1);
  }

  lemma {:induction false} AliceLogins(s1: Db.Store, verify: Crypto.Argon2Verify, hash: string,
                                       secret: Crypto.Secret, t1: int, d0: int, d1: int)
    requires Db.Valid(s1) && s1.users.rows == [Users.UserRow(1, "alice", "Alice A", hash, d0)]
    requires verify(hash, "secret1") == Some(true) && verify(hash, "wrongpw") == Some(false)
    ensures Login(s1, LoginAs("alice", "secret1"), verify, false, true, secret, t1, d1).1.status == 200
    ensures Login(s1, LoginAs("alice", "wrongpw"), verify, false, true, secret, t1, d1).1 == Rejected
    ensures LoginAsWritten(s1, LoginAs("alice", "wrongpw"), verify, false, true, secret, t1, d1).1.status == 200
  {
    TrimPlainWord("alice");
    KnownUserLogin(s1, "alice", "secret1", verify, hash, secret, t1, d0, d1);
    KnownUserLogin(s1, "alice", "wrongpw", verify, hash, secret, t1, d0, d1);
  }

  lemma {:induction false} NoSuchUserRejected(s1: Db.Store, secret: Crypto.Secret, verify: Crypto.Argon2Verify,
                                              t1: int, d1: int)
    requires Db.Valid(s1) && |s1.users.rows| == 1 && s1.users.rows[0].username == "alice"
    ensures Login(s1, LoginAs("nosuchuser", "x"), verify, false, true, secret, t1, d1).1 == Rejected
  {
    TrimPlainWord("nosuchuser");
    UnknownUserLogin(s1, "nosuchuser", "x", verify, secret, t1, d1);
  }

  /** A username not in the table is rejected like a wrong password. */
  lemma {:induction false} UnknownUserLogin(s1: Db.Store, name: string, password: string, verify: Crypto.Argon2Verify,
                                            secret: Crypto.Secret, t1: int, d1: int)
    requires Db.Valid(s1) && |s1.users.rows| == 1 && s1.users.rows[0].username != name
    requires Trim(name) == name && name != [] && password != ""
    ensures Login(s1, LoginAs(name, password), verify, false, true, secret, t1, d1).1 == Rejected
  {
    LoginChecksPassword(s1, LoginAs(name, password), verify, true, secret, t1, d1);
  }

  /** The only user: the right password logs in, any other is rejected; as
      written, every password logs in. */
  lemma {:induction false} KnownUserLogin(s1: Db.Store, name: string, password: string, verify: Crypto.Argon2Verify,
                                          hash: string, secret: Crypto.Secret, t1: int, d0: int, d1: int)
    requires Db.Valid(s1) && s1.users.rows == [Users.UserRow(1, name, "Alice A", hash, d0)]
    requires Trim(name) == name && name != [] && password != ""
    ensures verify(hash, password) == Some(true) ==>
      Login(s1, LoginAs(name, password), verify, false, true, secret, t1, d1).1.status == 200
    ensures verify(hash, password) != Some(true) ==>
      Login(s1, LoginAs(name, password), verify, false, true, secret, t1, d1).1 == Rejected
    ensures LoginAsWritten(s1, LoginAs(name, password), verify, false, true, secret, t1, d1).1.status == 200
  {
    LoginChecksPassword(s1, LoginAs(name, password), verify, true, secret, t1, d1);
    LoginAsWrittenIgnoresPassword(s1, LoginAs(name, password), verify, true, secret, t1, d1);
  }

  /** The token a signup returns, sent back as `Bearer <token>` within seven
      days, is accepted, and a valid sale submitted in business hours is then
      recorded: exactly one row is appended, owned by the new user and holding
      the values the response reports. */
  lemma {:induction false} SignupTokenRecordsSale(store: Db.Store, req: SignupRequest, argon2: Crypto.Argon2Hash,
                                                  secret: Crypto.Secret, t0: int, d0: int, text: string,
                                                  decode: string -> Option<Crypto.Jwt>, sale: SalesRoutes.SaleRequest,
                                                  authMs: int, nowMs: int, d1: int)
    requires Db.Valid(store)
    requires Signup(store, req, argon2, None, secret, t0, d0).1.status == 201
    requires ' ' !in text && text != ""
    requires decode(text) == Some(Signup(store, req, argon2, None, secret, t0, d0).1.body.token)
    requires Crypto.EpochSeconds(authMs) < Crypto.EpochSeconds(t0) + Crypto.TokenLifetime
    ensures var (s1, r1) := Signup(store, req, argon2, None, secret, t0, d0);
      var (s2, r2) := SalesRoutes.CreateSale(s1, Some("Bearer " + text), sale, secret, decode, authMs, nowMs, None, d1);
      && r2.status != 401
      && (r2.status == 201 <==>
            SalesRoutes.CheckPayload(sale).Ok? && SalesRoutes.InBusinessHours(SalesRoutes.UtcHour(nowMs)))
      && (r2.status == 201 ==>
            && s2.sales.rows == s1.sales.rows + [SalesLedger.SaleRow(
                 r2.body.sale.id, r1.body.user.id, r2.body.sale.itemDescription, r2.body.sale.amountCents,
                 r2.body.sale.commissionCents, r2.body.sale.timestamp, r2.body.sale.photoPath, d1)]
            && s2.users == s1.users)
  {
    var (s1, r1) := Signup(store, req, argon2, None, secret, t0, d0);
    var claims := Crypto.Claims(r1.body.user.id, r1.body.user.username, r1.body.user.role);
    Crypto.IssuedTokenAuthenticates(secret, claims, t0, authMs, "Bearer", text, decode);
    assert "Bearer" + " " + text == "Bearer " + text;
  }
}

=== FILE: store.dfy ===
/** The database the handlers share: the three tables of src/database/init.js. */
module Db {
  import Users
  import SalesLedger
  import LoginAttempts

  datatype Store = Store(users: Users.UserTable, sales: SalesLedger.Ledger, attempts: LoginAttempts.AttemptLog)

  /** Every table satisfies its declared constraints. */
  predicate Valid(s: Store) {
    Users.Valid(s.users) && SalesLedger.Valid(s.sales) && LoginAttempts.Valid(s.attempts)
  }

  /** A freshly provisioned database. */
  const Empty := Store(Users.Empty, SalesLedger.Empty, LoginAttempts.Empty)
}

=== FILE: users.dfy ===
/** The user table and its operations (src/models/User.js), with the table's
    declared constraints (src/database/init.js): `id` is an AUTOINCREMENT key
    and `username` is UNIQUE. */
module Users {
  import opened Common
  import Crypto

  /** The role every account is given; it is returned by `create` but never stored. */
  const EmployeeRole := "employee"

  /** The words SQLite puts in the message of a UNIQUE-constraint error. */
  const UniqueMarker := "UNIQUE constraint failed"

  /** The message SQLite's error carries when the UNIQUE constraint rejects an insert. */
  const UniqueViolation := "SQLITE_CONSTRAINT: " + UniqueMarker + ": users.username"

  /** A row of `users`; `createdAt` is the store's own timestamp. */
  datatype UserRow = UserRow(id: int, username: string, fullName: string, passwordHash: string, createdAt: int)

  /** The table: rows in insertion order and the id the next insert receives. */
  datatype UserTable = UserTable(rows: seq<UserRow>, nextId: int)

  /** What `User.create` resolves to: `{id, username, role: 'employee'}`. */
  datatype NewUser = NewUser(id: int, username: string, role: string)

  /** The table's constraints: ids are assigned in increasing order below
      `nextId`, and no two rows share a username. */
  predicate Valid(t: UserTable) {
    && (forall i, j :: 0 <= i < j < |t.rows| ==> t.rows[i].id < t.rows[j].id)
    && (forall i :: 0 <= i < |t.rows| ==> t.rows[i].id < t.nextId)
    && (forall i, j :: 0 <= i < j < |t.rows| ==> t.rows[i].username != t.rows[j].username)
  }

  predicate Taken(t: UserTable, username: string) {
    exists i :: 0 <= i < |t.rows| && t.rows[i].username == username
  }

  predicate HasId(t: UserTable, id: int) {
    exists i :: 0 <= i < |t.rows| && t.rows[i].id == id
  }

  /** The empty table of a freshly provisioned database. */
  const Empty := UserTable([], 1)

  /** `User.create`: hash the password, then insert; the insert fails with
      `fault` when the store errors, and with the UNIQUE violation when the
      username is taken. A failure of either step leaves the table as it was. */
  function Create(t: UserTable, username: string, fullName: string, password: string,
                  argon2: Crypto.Argon2Hash, fault: Option<string>, now: int): (out: (UserTable, Result<NewUser>))
    requires Valid(t)
    ensures Valid(out.0)
    ensures out.1.Ok? <==> argon2(password).Some? && fault.None? && !Taken(t, username)
    ensures out.1.Err? ==> out.0 == t
    ensures argon2(password).None? ==> out.1 == Err(Crypto.HashingFailed)
    ensures argon2(password).Some? && fault.None? && Taken(t, username) ==>
      out.1.Err? && Contains(out.1.message, UniqueMarker)
    ensures out.1.Ok? ==>
      && !HasId(t, out.1.value.id)
      && out.1.value == NewUser(out.1.value.id, username, EmployeeRole)
      && out.0.rows == t.rows + [UserRow(out.1.value.id, username, fullName, argon2(password).value, now)]
  {
    match Crypto.HashPassword(argon2, password)
    case Err(m) => (t, Err(m))
    case Ok(hash) =>
      if fault.Some? then (t, Err(fault.value))
      else if Taken(t, username) then
        UniqueViolationMessage();
        (t, Err(UniqueViolation))
      else
        var row := UserRow(t.nextId, username, fullName, hash, now);
        (UserTable(t.rows + [row], t.nextId + 1), Ok(NewUser(row.id, username, EmployeeRole)))
  }

  lemma UniqueViolationMessage()
    ensures Contains(UniqueViolation, UniqueMarker)
  {
    ContainsInfix("SQLITE_CONSTRAINT: ", UniqueMarker, ": users.username");
  }

  /** The first row with exactly this username, if any. */
  function Lookup(rows: seq<UserRow>, username: string): (r: Option<UserRow>)
    ensures r.Some? ==> r.value in rows && r.value.username == username
    ensures r.None? <==> forall i :: 0 <= i < |rows| ==> rows[i].username != username
  {
    if rows == [] then None
    else if rows[0].username == username then Some(rows[0])
    else Lookup(rows[1..], username)
  }

  /** `User.findByUsername`: the row whose username equals the argument exactly
      (case-sensitive), or `null`; only a store `fault` is an error. */
  function FindByUsername(t: UserTable, username: string, fault: bool): (r: Result<Option<UserRow>>)
    ensures r.Err? <==> fault
    ensures r.Ok? ==> (r.value.None? <==> !Taken(t, username))
    ensures r.Ok? && r.value.Some? ==> r.value.value in t.rows && r.value.value.username == username
  {
    if fault then Err("SQLITE_ERROR") else Ok(Lookup(t.rows, username))
  }

  /** With unique usernames the lookup has only one candidate. */
  lemma FindByUsernameUnique(t: UserTable, username: string, k: nat)
    requires Valid(t)
    requires k < |t.rows| && t.rows[k].username == username
    ensures FindByUsername(t, username, false) == Ok(Some(t.rows[k]))
  {
  }

  /** An account created with `create` is found again by its username, with
      the stored hash of the password and the fresh id it was given. */
  lemma CreatedUserIsFound(t: UserTable, username: string, fullName: string, password: string,
                           argon2: Crypto.Argon2Hash, now: int)
    requires Valid(t)
    requires argon2(password).Some? && !Taken(t, username)
    ensures var out := Create(t, username, fullName, password, argon2, None, now);
      && out.1.Ok?
      && FindByUsername(out.0, username, false)
         == Ok(Some(UserRow(out.1.value.id, username, fullName, argon2(password).value, now)))
  {
    var out := Create(t, username, fullName, password, argon2, None, now);
    FindByUsernameUnique(out.0, username, |t.rows|);
  }

  /** Creating a username that already exists fails and leaves the table as
      it was, so at most one row carries any username. */
  lemma DuplicateCreateFails(t: UserTable, username: string, fullName: string, password: string,
                             argon2: Crypto.Argon2Hash, fault: Option<string>, now: int,
                             fullName2: string, password2: string, argon2b: Crypto.Argon2Hash, now2: int)
    requires Valid(t)
    requires Create(t, username, fullName, password, argon2, fault, now).1.Ok?
    ensures var t1 := Create(t, username, fullName, password, argon2, fault, now).0;
      var out := Create(t1, username, fullName2, password2, argon2b, None, now2);
      && out.1.Err? && out.0 == t1
      && (argon2b(password2).Some? ==> Contains(out.1.message, UniqueMarker))
  {
    var t1 := Create(t, username, fullName, password, argon2, fault, now).0;
    assert t1.rows[|t.rows|].username == username;
  }

  /** `User.validatePassword`: checks the password against this user's stored
      hash and no other; the result is a promise of that check. */
  function ValidatePassword(user: UserRow, password: string, argon2: Crypto.Argon2Verify): (p: Promise<bool>)
    ensures p.settled <==> argon2(user.passwordHash, password) == Some(true)
  {
    Promise(Crypto.VerifyPassword(argon2, user.passwordHash, password))
  }
}
